=== FILE: README.md ===
# Section structure of AsciiDoc documents: a Dafny model

This project models two parts of a documentation server. One is the document
parser's section extraction. The other is the shared helpers that name and
find sections. Both are modelled as pure Dafny functions, and the project
proves what they compute.

- `src/dacli/parser_utils.py` holds these helpers:
  - `KNOWN_DOC_EXTENSIONS` and `strip_doc_extension` map a document's file
    path to the path prefix used in section paths.
  - `slugify` turns text into a URL slug.
  - `collect_all_sections` flattens a section tree in pre-order.
  - `find_section_by_path` looks a section up by its dotted path.
- `src/mcp_server/asciidoc_parser.py` holds the parser:
  - `SECTION_PATTERN` recognises headings such as `== Title`.
  - `_title_to_slug` turns a heading title into a path component.
  - `AsciidocParser._parse_sections` builds the section tree in one pass
    over the lines, using a stack of open sections.
  - `IncludeInfo` and `AsciidocDocument` appear only as datatypes.

The modules and what each one holds:

- `wrappers.dfy` (`Wrappers`): `Option`.
- `chars.dfy` (`Chars`):
  - Python's character classes. `\w`, `\s` and `str.lower` are given as a
    record `CharClasses`. `Valid()` lists the few facts about them the proofs
    use. `Ascii` is one instance that satisfies them.
  - Helpers for `strip` and `re.sub(pattern + "+", "-", ...)`.
- `runs.dfy` (`Runs`): reference definitions the slug functions are compared
  with. `Words` gives the maximal runs of letters, `JoinDash` joins them with
  dashes, and `CollapseRuns` shortens every run of a class to one character.
- `slug.dfy` (`Slug`): `slugify` and `_title_to_slug`.
- `doc_path.dfy` (`DocPath`): `strip_doc_extension`, with the `PurePosixPath`
  rules for `name` and `suffix`.
- `sections.dfy` (`Sections`): the `Section` and `SourceLocation` records, and
  the two tree walks.
- `heading.dfy` (`Heading`): an exact decision procedure for
  `SECTION_PATTERN`. It follows the backtracking order of Python's `re`:
  - greedy `={1,6}` and `\s+`;
  - a lazy `(.+?)` that never crosses a line feed;
  - a `$` that also matches before a final line feed.
- `asciidoc_parser.dfy` (`AsciidocParser`): `_parse_sections` as a fold over
  the lines.
  - The Python code appends a child through a reference it keeps on the
    stack. The model keeps the forest as a value and the stack as a list of
    section heads, meaning sections without their children.
  - The fold's invariant says the stack is exactly the forest's right-hand
    spine: the last top-level section, its last child, and so on.

The main theorem is the contract of `AsciidocParser.ParseSections`. For every
list of lines:

- The forest is well formed:
  - levels run from 0 to 5;
  - each child is deeper than its parent;
  - a top-level path is the slug of the title;
  - a child's path is its parent's path, a dot, and the slug of its own
    title.
- The forest's pre-order lists one section per heading line. The sections
  follow line order, and each has that line's number, level and title.
- Each section's path is the one the *last earlier section with a smaller
  level* gives it. A level-0 section, or one with no such earlier section, is
  top-level.
- The document title is the title of the last level-0 heading, or `""` when
  there is none.

## Model

| member | source | states |
|---|---|---|
| Chars.Lower | src/dacli/parser_utils.py:57 | `text.lower()` (also `title.lower()` at asciidoc_parser.py:34), one character at a time. The result has the input's length, and under the table assumptions it is lowercase. A lowercase text comes back unchanged. |
| Chars.Strip | src/dacli/parser_utils.py:63 | `s.strip("-")` (also `.strip()` of the title group at asciidoc_parser.py:147): the result starts and ends outside the class, is the input itself when that already holds, and keeps only characters of the input. |
| Chars.StripIsInnerSlice | src/dacli/parser_utils.py:63 | What `strip` removes: the result is one contiguous slice of the input, and every character before and after that slice is in the class. So only class characters at the two ends go. |
| Chars.ReplaceRuns | src/dacli/parser_utils.py:59-61 | `re.sub(r"[...]+", "-", s)` (also `\s+` at asciidoc_parser.py:36): never longer than the input; each character is an inserted `-` or a character of the input outside the class. |
| Chars.ReplaceRunsNoAdjacent | src/dacli/parser_utils.py:59-61 | After the replacement no two members of the class stand side by side. |
| Runs.ReplaceRunsCollapse | src/dacli/parser_utils.py:59-61 | For every text, the replacement equals the text with each maximal run of the class shortened to one character and that character turned into `-`. The shortening is defined independently, by comparing neighbours. |
| Slug.RemoveSpecial | src/dacli/parser_utils.py:57 | `re.sub(r"[^\w\s-]", "", s)` (also asciidoc_parser.py:35): every character of the result is a word character, whitespace or `-`, and comes from the input; every such character of the input survives; a text of such characters comes back unchanged. Order and repeats are fixed by `RemoveSpecialConcat` and `RemoveSpecialOne`. |
| Slug.RemoveSpecialConcat | src/dacli/parser_utils.py:57 | The removal works piece by piece: the result for `x + y` is the result for `x` followed by the result for `y`. |
| Slug.RemoveSpecialOne | src/dacli/parser_utils.py:57 | A single character is kept exactly when it is a word character, whitespace or `-`. With `RemoveSpecialConcat`, this fixes the result of every text, order and repeats included. |
| Slug.Slugify | src/dacli/parser_utils.py:37-63 | The result has the shape of a slug: every character is `-` or a lowercase word character other than `_`; no `-` follows another; there is no `-` at either end; there is no whitespace. It is never longer than the input. Which characters it keeps, and where the dashes go, is stated by `SlugifyKeepsLetters` and `SlugifyJoinsWords`. |
| Slug.SlugifyIdempotent | src/dacli/parser_utils.py:37-63 | Slugifying a slug gives it back: `slugify(slugify(x)) == slugify(x)`. |
| Slug.SlugifyKeepsLetters | src/dacli/parser_utils.py:44-63 | Separators aside, the slug holds exactly the word characters of the lowered text other than `_`, in their order. So every letter is kept, a non-ASCII one such as `ü` included, and nothing else gets in. |
| Slug.SlugifyJoinsWords | src/dacli/parser_utils.py:56-63 | For every text, the slug is the text's words joined by single `-`. The words are the maximal runs of word characters other than `_` after special characters are dropped; they are defined independently of the regular expressions. So `"a!b"` gives `"ab"`, while `"a b"`, `"a_b"`, `"a--b"` and `"a - b"` give `"a-b"`. |
| Slug.SlugifyEmpty | src/dacli/parser_utils.py:56-63 | The slug is empty if and only if the lowered text has no word character other than `_`. The empty text is one such case. |
| Slug.SlugifySeparatorsToDashes | src/dacli/parser_utils.py:44-59 | A special case of `SlugifyJoinsWords`, in the docstring's words: spaces and underscores become dashes. Take a lowered text of slug letters and lone separators, with no separator at either end. Its slug is that text with each separator replaced by `-`; for example `hello_world` and `hello world` both give `hello-world`. |
| Slug.TitleToSlug | src/mcp_server/asciidoc_parser.py:24-37 | Every character of the slug is `-` or a word character. The slug is lowercase, has no whitespace and no `.`, and is never longer than the title. So a slug never adds a level to a dotted section path. What it holds exactly is stated by `TitleToSlugKeepsLetters` and `TitleToSlugCollapsesSpaces`. |
| Slug.TitleToSlugKeepsLetters | src/mcp_server/asciidoc_parser.py:31-36 | Dashes aside, the slug holds exactly the word characters of the lowered title, `_` included, in their order. |
| Slug.TitleToSlugCollapsesSpaces | src/mcp_server/asciidoc_parser.py:31-36 | For every title, the slug is the lowered title without special characters, with each maximal whitespace run shortened to one character and turned into `-`. So `"a  b"` gives `"a-b"`, `"Q&A Section"` gives `"qa-section"`, and `"a - b"` gives `"a---b"`. |
| Slug.TitleToSlugSpacesToDashes | src/mcp_server/asciidoc_parser.py:31-36 | A special case of `TitleToSlugCollapsesSpaces`, in the docstring's words: spaces are replaced by dashes. Take a lowered title with no special character and no two whitespace characters side by side. Its slug is that title with each whitespace character replaced by `-`. |
| Slug.TitleToSlugIdempotent | src/mcp_server/asciidoc_parser.py:24-37 | Applying `_title_to_slug` to its own output changes nothing. |
| DocPath.Name | src/dacli/parser_utils.py:30 | `PurePosixPath.name`: the end of the path, holding no `/`. |
| DocPath.NameFollowsLastSlash | src/dacli/parser_utils.py:30 | When the name is not the whole path, a `/` comes right before it, so it is everything after the last `/`. |
| DocPath.ForwardSlashes | src/dacli/parser_utils.py:29 | `str(file_path).replace("\\", "/")`: same length, no backslash left. |
| DocPath.ForwardSlashesKeepsOthers | src/dacli/parser_utils.py:29 | Each backslash becomes `/`. Every other character stays at its place, and a path without backslashes comes back unchanged. |
| DocPath.Suffix | src/dacli/parser_utils.py:30 | The suffix ends the path. When it is non-empty, it starts with its only dot, holds no `/`, has at least two characters, and is shorter than the file name. |
| DocPath.StripDocExtension | src/dacli/parser_utils.py:16-34 | The result has no backslash. The extension test `suffix.lower() in KNOWN_DOC_EXTENSIONS` (lines 30-31) is the predicate `IsKnownDocExtension`. With a known extension (compared case-insensitively), the result plus the extension is the whole path with forward slashes. Otherwise the result is that whole path. |
| DocPath.StripDocExtensionKeepsOtherDots | src/dacli/parser_utils.py:19-34 | Stripping removes exactly one dot when the extension is known and none otherwise. Dots inside the name, such as those of `v1.2.3`, survive. |
| DocPath.StripKnownExtension | src/dacli/parser_utils.py:13-33 | Appending `.md`, `.adoc` or `.asciidoc` to a non-empty file name and then stripping gives the name back, with forward slashes. |
| DocPath.HiddenFileKeepsName | src/dacli/parser_utils.py:30-34 | A file name whose only dot is its first character, such as `.md`, has no suffix, so nothing is stripped. |
| Sections.CollectAllSections | src/dacli/parser_utils.py:66-79 | The list passed in stays as a prefix. What is appended is the pre-order of the forest: one entry per section, each before its children. |
| Sections.PreOrderSubtreeFollows | src/dacli/parser_utils.py:77-79 | In the collected list, the entries right after a section are exactly the pre-order of that section's own subtree. |
| Sections.FindSectionByPath | src/dacli/parser_utils.py:82-99 | A section that is found has the requested path and belongs to the tree. Nothing is found exactly when no section of the tree has that path. |
| Sections.FindSectionByPathIsFirstInPreOrder | src/dacli/parser_utils.py:92-99 | When several sections share a path, the lookup returns the first of them in pre-order. |
| Heading.LazyTitleEnd | src/mcp_server/asciidoc_parser.py:21 | The end the lazy title group picks leaves a tail that `(?:\s+=*)?$` matches, and no line feed comes before it. |
| Heading.LazyTitleEndIsShortest | src/mcp_server/asciidoc_parser.py:21 | The lazy group takes the shortest title: no earlier end lets the closing tail match. |
| Heading.LazyTitleEndFound | src/mcp_server/asciidoc_parser.py:21 | On text without line feeds the lazy group always finds an end. |
| Heading.TitleGroup | src/mcp_server/asciidoc_parser.py:21 | A captured title group starts after at least one whitespace character. It is non-empty and has no line feed. |
| Heading.MatchHeading | src/mcp_server/asciidoc_parser.py:144-148 | A match needs 1 to 6 leading `=`, then whitespace, then at least one more character. The level is the number of `=` minus one, so at most 5. The title has no line feed and no whitespace at either end. An empty line, or one not starting with `=`, never matches. Which title is read is stated by `MatchSpaced`. |
| Heading.MatchSpaced | src/mcp_server/asciidoc_parser.py:144-148 | Take `level + 1` equals signs, any non-empty whitespace run, a plain title, and any closing tail `(?:\s+=*)?$` without a line feed (nothing, trailing blanks, or whitespace and a run of `=`). The recogniser reads back that level and that title. So `"==  Foo"`, `"==\tFoo"` and `"== Foo  =="` all give level 1 and `"Foo"`. |
| Heading.MatchRendered | src/mcp_server/asciidoc_parser.py:21 | Round trip: a heading rendered as `level + 1` equals signs, a space and a plain title is read back with that level and title. This holds with or without a closing run of `=`. |
| Heading.HeadingLineShape | src/mcp_server/asciidoc_parser.py:21 | For a line without a line feed, it matches if and only if it starts with 1 to 6 `=` followed by whitespace and at least one more character. |
| AsciidocParser.PopDeeper | src/mcp_server/asciidoc_parser.py:167-169 | The popped stack is a prefix of the stack. Its top is shallower than the new level, and every popped entry is at that level or deeper. |
| AsciidocParser.PopDeeperKeepsShallower | src/mcp_server/asciidoc_parser.py:167-169 | On a stack whose levels increase, popping keeps exactly the entries shallower than the new level. |
| AsciidocParser.LastBelowPopDeeper | src/mcp_server/asciidoc_parser.py:167-172 | Popping at one level does not change which entry is the last one shallower than any level at or below it. |
| AsciidocParser.AppendAtDepth | src/mcp_server/asciidoc_parser.py:164-178 | `sections.append(section)` or `parent.children.append(section)` on the forest as a value. At depth 0, or on an empty forest, the forest gains one top-level section; otherwise the number of top-level sections is unchanged. What it adds and where is stated by `AppendAtDepthOutline` and `AppendAtDepthSpine`. |
| AsciidocParser.AppendAtDepthOutline | src/mcp_server/asciidoc_parser.py:164-178 | Adding a section along the spine adds exactly that section to the forest's pre-order, at its end. |
| AsciidocParser.AppendAtDepthSpine | src/mcp_server/asciidoc_parser.py:171-180 | After adding at depth `d`, the spine is the old spine's first `d` sections followed by the new one. This is the stack after `section_stack.append(section)`. |
| AsciidocParser.AppendAtDepthOK | src/mcp_server/asciidoc_parser.py:171-178 | Adding a section under a spine section it is deeper than, with that section's path as its prefix, keeps the forest well formed. So does adding a top-level section whose path is its slug. |
| AsciidocParser.Open | src/mcp_server/asciidoc_parser.py:151-180 | The heading branch of the loop. The new section is built by `Opened` (lines 151-158), with the path from `PathUnder` (lines 171-177): the parent's path, a dot and the slug, or the slug alone when no parent is left. Only a level-0 heading sets the document title. A level-0 heading goes to the end of the top-level sections and leaves only itself on the stack. |
| AsciidocParser.Step | src/mcp_server/asciidoc_parser.py:143-180 | One pass of the loop. A line the recogniser rejects changes nothing. A heading's new section, with that line's number, level and title, becomes the top of the stack. |
| AsciidocParser.StepAddsOne | src/mcp_server/asciidoc_parser.py:145-180 | A heading line adds one section at the end of the pre-order, and that section becomes the top of the stack. Only a level-0 heading changes the document title. |
| AsciidocParser.StepPicksParent | src/mcp_server/asciidoc_parser.py:160-180 | A level-0 heading becomes top-level and leaves only itself on the stack. A deeper heading keeps the stack below the first entry at its level or deeper. It goes under the last entry kept, or becomes top-level, and its path follows its parent's path. |
| AsciidocParser.StepKeepsTree | src/mcp_server/asciidoc_parser.py:143-180 | After any line the stack is still the forest's spine, its levels still increase, and the forest stays well formed. |
| AsciidocParser.StepKeepsNesting | src/mcp_server/asciidoc_parser.py:166-180 | After any line, for every level the stack's last entry shallower than it is the last such section of the document so far. Every section's path is still the one its predecessors give it. |
| AsciidocParser.Recognise | src/mcp_server/asciidoc_parser.py:143-144 | One verdict of `SECTION_PATTERN.match(line)` per line, in order. |
| AsciidocParser.Headings | src/mcp_server/asciidoc_parser.py:143-145 | The headings come in strictly increasing line order. Each records the file and its 1-based line number. |
| AsciidocParser.HeadingsSound | src/mcp_server/asciidoc_parser.py:143-148 | Each heading entry carries the level and title the recogniser read from its line. |
| AsciidocParser.HeadingsComplete | src/mcp_server/asciidoc_parser.py:143-145 | Every line the recogniser accepts has an entry. |
| AsciidocParser.DocTitle | src/mcp_server/asciidoc_parser.py:160-162 | The title is that of the last level-0 heading, or `""` when there is none. |
| AsciidocParser.Fold | src/mcp_server/asciidoc_parser.py:139-180 | After any number of lines the invariant holds. The stack is the spine with increasing levels. The forest is well formed and lists the headings seen so far in order. The title is that of the last level-0 heading. Every path follows the nesting rule. |
| AsciidocParser.ParseSections | src/mcp_server/asciidoc_parser.py:124-182 | For all lines: the forest is well formed; its pre-order lists exactly the heading lines in order, each with its location, level and title; every path follows the nesting rule; the title is that of the last level-0 heading. No lines gives no sections and an empty title. |
| AsciidocParser.EntryFromVerdict | src/mcp_server/asciidoc_parser.py:143-158 | A section of the result sits on a line the recogniser accepted. Its location is that line of the file, and its level and title are what the recogniser read there. |
| AsciidocParser.HeadingLinesBecomeSections | src/mcp_server/asciidoc_parser.py:143-180 | Every heading line of the input gives a section of the result. |

## Left out

- Character classes. Python's Unicode tables for `\w`, `\s` and `str.lower`
  are not modelled. They are parameters (`Chars.CharClasses`), and
  `Valid()` lists the facts the proofs assume of them.
  - `Chars.Lower` lowers one character at a time. Python's full case mapping
    can change a string's length (`"İ".lower()`), and it can depend on the
    neighbouring characters: the final-sigma rule lowers `"ΟΔΟΣ"` to
    `"οδος"` ending in `ς`. Neither is modelled.
- `DocPath.StripDocExtension` takes the string `str(file_path)` as given.
  - The normalisation `pathlib` applies when it builds a `Path` is not
    modelled: repeated `/` and `.` components.
  - Only the POSIX flavour is modelled. On Windows a backslash also
    separates components, which can change `suffix`.
- `parse_file`: reading the file and the existence check are I/O, and
  splitting the text with `splitlines()` belongs to that step. The model
  starts from the list of lines.
  - The `AsciidocDocument` it builds is only declared as a datatype.
  - Its `elements` and `cross_references` fields are left out, because their
    types come from `mcp_server.models`, which is not part of this model.
- The parser's constructor: `base_path` and `max_include_depth` are stored
  but never used by the section extraction.
- The verdicts of `SECTION_PATTERN` are computed for every line before the
  fold, by `Recognise`. The Python loop matches each line when it
  reaches it. Matching has no side effect, so the result is the same.
- `file_path` is a string in the model. `SourceLocation.file` holds it as
  given.
- `Sections.FindSectionByPath` treats a found section as true in `if found:`.
  That is so for dataclass instances that define neither `__bool__` nor
  `__len__`. `Section` is defined in `dacli.models` / `mcp_server.models`,
  which are not part of this model.
- The rest of the repository is not part of this model:
  - the LLM services;
  - the API models;
  - the server entry point;
  - the structure index, search, editing and validation services;
  - the Markdown parser;
  - the tests.

=== FILE: asciidoc_parser.dfy ===
/**
 The section extraction of src/mcp_server/asciidoc_parser.py:
 `AsciidocParser._parse_sections` walks the lines once, keeping a stack of
 open sections; a heading pops every open section at its level or deeper and
 becomes the last child of what remains on top, or a top-level section.

 The Python code appends to `parent.children` through a reference held on
 the stack. The model keeps the forest as a value and an explicit stack of
 section heads (sections with their children left out), and proves that the
 stack is always the right-hand spine of the forest: the last top-level
 section, its last child, that child's last child, and so on.
 */
module AsciidocParser {
  import opened Wrappers
  import opened Chars
  import opened Slug
  import opened Sections
  import opened Heading

  /** A resolved `include::` directive. */
  datatype IncludeInfo = IncludeInfo(
    sourceLocation: SourceLocation,
    targetPath: string,
    options: map<string, string>)

  /** A parsed AsciiDoc file. */
  datatype AsciidocDocument = AsciidocDocument(
    filePath: string,
    title: string,
    sections: seq<Section>,
    attributes: map<string, string>,
    includes: seq<IncludeInfo>)

  /* ---------- Heads, the spine and the outline of a forest ---------- */

  /** A section without its subtree. */
  function Head(s: Section): Section {
    s.(children := [])
  }

  function Heads(xs: seq<Section>): (r: seq<Section>)
    ensures |r| == |xs| && forall i :: 0 <= i < |xs| ==> r[i] == Head(xs[i])
  {
    seq(|xs|, i requires 0 <= i < |xs| => Head(xs[i]))
  }

  lemma HeadsConcat(a: seq<Section>, b: seq<Section>)
    ensures Heads(a + b) == Heads(a) + Heads(b)
  {
  }

  /** The heads of the last top-level section, its last child, and so on
      down to a section without children. */
  function Spine(forest: seq<Section>): (r: seq<Section>)
    ensures forall i :: 0 <= i < |r| ==> r[i].children == []
  {
    if forest == [] then []
    else [Head(forest[|forest| - 1])] + Spine(forest[|forest| - 1].children)
  }

  /** Every section of a forest, without subtrees, in document order. */
  function Outline(forest: seq<Section>): (r: seq<Section>)
    ensures |r| == Size(forest)
  {
    Heads(PreOrder(forest))
  }

  lemma OutlineConcat(a: seq<Section>, b: seq<Section>)
    ensures Outline(a + b) == Outline(a) + Outline(b)
  {
    PreOrderConcat(a, b);
    HeadsConcat(PreOrder(a), PreOrder(b));
  }

  lemma OutlineOne(x: Section)
    ensures Outline([x]) == [Head(x)] + Outline(x.children)
  {
    assert [x][1..] == [];
    assert PreOrder([x]) == [x] + PreOrder(x.children);
    HeadsConcat([x], PreOrder(x.children));
  }

  lemma OutlineSnoc(f: seq<Section>, x: Section)
    ensures Outline(f + [x]) == Outline(f) + [Head(x)] + Outline(x.children)
  {
    OutlineConcat(f, [x]);
    OutlineOne(x);
    var a := Outline(f);
    var b := Outline(x.children);
    assert a + ([Head(x)] + b) == a + [Head(x)] + b;
  }

  /** Adds `sec` as the last child of the spine section at depth `d - 1`,
      or as the last top-level section when `d` is 0. A depth beyond the
      spine adds it below the deepest spine section. */
  function AppendAtDepth(forest: seq<Section>, d: nat, sec: Section): (r: seq<Section>)
    ensures r != []
    ensures |r| == (if d == 0 || forest == [] then |forest| + 1 else |forest|)
  {
    if d == 0 || forest == [] then forest + [sec]
    else
      var n := |forest| - 1;
      forest[..n] + [forest[n].(children := AppendAtDepth(forest[n].children, d - 1, sec))]
  }

  /** Appending along the spine adds exactly one section to the outline, at
      its end. */
  lemma {:induction false} AppendAtDepthOutline(forest: seq<Section>, d: nat, sec: Section)
    requires sec.children == []
    ensures Outline(AppendAtDepth(forest, d, sec)) == Outline(forest) + [sec]
  {
    if d == 0 || forest == [] {
      OutlineSnoc(forest, sec);
    } else {
      var n := |forest| - 1;
      var x := forest[n];
      var x' := x.(children := AppendAtDepth(x.children, d - 1, sec));
      assert forest == forest[..n] + [x];
      OutlineSnoc(forest[..n], x);
      OutlineSnoc(forest[..n], x');
      AppendAtDepthOutline(x.children, d - 1, sec);
      assert Head(x') == Head(x);
    }
  }

  /** Appending at depth `d` keeps the first `d` spine sections and puts the
      new section below them. */
  lemma {:induction false} AppendAtDepthSpine(forest: seq<Section>, d: nat, sec: Section)
    requires sec.children == [] && d <= |Spine(forest)|
    ensures Spine(AppendAtDepth(forest, d, sec)) == Spine(forest)[..d] + [sec]
  {
    if d == 0 || forest == [] {
      var f' := forest + [sec];
      assert f'[|f'| - 1] == sec;
    } else {
      var n := |forest| - 1;
      var x := forest[n];
      var x' := x.(children := AppendAtDepth(x.children, d - 1, sec));
      var f' := forest[..n] + [x'];
      assert f'[|f'| - 1] == x';
      AppendAtDepthSpine(x.children, d - 1, sec);
      assert Head(x') == Head(x);
      assert Spine(forest) == [Head(x)] + Spine(x.children);
      assert Spine(forest)[..d] == [Head(x)] + Spine(x.children)[..d - 1];
    }
  }

  /* ---------- Well-formed section trees ---------- */

  /** The shape `_parse_sections` gives every section below the top level:
      levels 0 to 5, no anchor, each child deeper than its parent and its
      path the parent's path, a dot, and the slug of its own title. */
  predicate TreeOK(cc: CharClasses, s: Section)
    decreases s
  {
    && 0 <= s.level <= 5
    && s.anchor.None?
    && forall c :: c in s.children ==>
        && c.level > s.level
        && c.path == s.path + "." + TitleToSlug(cc, c.title)
        && TreeOK(cc, c)
  }

  /** Top-level sections carry the slug of their title as their path. */
  predicate ForestOK(cc: CharClasses, forest: seq<Section>) {
    forall s :: s in forest ==> s.path == TitleToSlug(cc, s.title) && TreeOK(cc, s)
  }

  /** The spine of a section's subtree, starting with the section itself. */
  function Chain(s: Section): (r: seq<Section>)
    ensures r != [] && r[0] == Head(s)
  {
    [Head(s)] + Spine(s.children)
  }

  /** Where the new section may go: deeper than the spine section it is
      added under, with that section's path as the prefix of its own. */
  predicate FitsUnder(cc: CharClasses, parent: Section, sec: Section) {
    sec.level > parent.level && sec.path == parent.path + "." + TitleToSlug(cc, sec.title)
  }

  predicate NewLeaf(sec: Section) {
    sec.children == [] && 0 <= sec.level <= 5 && sec.anchor.None?
  }

  lemma {:induction false} AppendBelowOK(cc: CharClasses, s: Section, d: nat, sec: Section)
    requires TreeOK(cc, s) && NewLeaf(sec)
    requires d < |Chain(s)| && FitsUnder(cc, Chain(s)[d], sec)
    ensures TreeOK(cc, s.(children := AppendAtDepth(s.children, d, sec)))
    decreases s
  {
    var cs := s.children;
    if d == 0 || cs == [] {
      assert Chain(s)[d] == Head(s);
      var s' := s.(children := cs + [sec]);
      forall c | c in s'.children
        ensures c.level > s.level && c.path == s.path + "." + TitleToSlug(cc, c.title) && TreeOK(cc, c)
      {
        if c != sec {
          assert c in cs;
        }
      }
    } else {
      var n := |cs| - 1;
      var x := cs[n];
      assert x in cs;
      assert Chain(s)[d] == Chain(x)[d - 1];
      AppendBelowOK(cc, x, d - 1, sec);
      var x' := x.(children := AppendAtDepth(x.children, d - 1, sec));
      var s' := s.(children := cs[..n] + [x']);
      forall c | c in s'.children
        ensures c.level > s.level && c.path == s.path + "." + TitleToSlug(cc, c.title) && TreeOK(cc, c)
      {
        if c != x' {
          assert c in cs;
        }
      }
    }
  }

  /** Replacing the last section of a forest by a well-formed section with
      the same path and title keeps the forest well formed; so does adding
      one with the slug of its title as its path. */
  lemma ReplaceLastOK(cc: CharClasses, forest: seq<Section>, x': Section)
    requires forest != [] && ForestOK(cc, forest[..|forest| - 1])
    requires x'.path == TitleToSlug(cc, x'.title) && TreeOK(cc, x')
    ensures ForestOK(cc, forest[..|forest| - 1] + [x'])
  {
    var f' := forest[..|forest| - 1] + [x'];
    forall s | s in f'
      ensures s.path == TitleToSlug(cc, s.title) && TreeOK(cc, s)
    {
      if s != x' {
        assert s in forest[..|forest| - 1];
      }
    }
  }

  lemma ForestPrefixOK(cc: CharClasses, forest: seq<Section>, n: nat)
    requires ForestOK(cc, forest) && n <= |forest|
    ensures ForestOK(cc, forest[..n])
  {
    forall s | s in forest[..n]
      ensures s.path == TitleToSlug(cc, s.title) && TreeOK(cc, s)
    {
      assert s in forest;
    }
  }

  /** Appending under the last top-level section, where it fits, keeps the
      forest well formed. */
  lemma AppendNestedOK(cc: CharClasses, forest: seq<Section>, d: nat, sec: Section)
    requires forest != [] && 0 < d <= |Spine(forest)|
    requires ForestOK(cc, forest) && NewLeaf(sec)
    requires FitsUnder(cc, Spine(forest)[d - 1], sec)
    ensures ForestOK(cc, AppendAtDepth(forest, d, sec))
  {
    var n := |forest| - 1;
    var x := forest[n];
    assert x in forest;
    assert Spine(forest)[d - 1] == Chain(x)[d - 1];
    AppendBelowOK(cc, x, d - 1, sec);
    ForestPrefixOK(cc, forest, n);
    var x' := x.(children := AppendAtDepth(x.children, d - 1, sec));
    ReplaceLastOK(cc, forest, x');
    assert AppendAtDepth(forest, d, sec) == forest[..n] + [x'];
  }

  /** Appending a section where it fits keeps the forest well formed. */
  lemma AppendAtDepthOK(cc: CharClasses, forest: seq<Section>, d: nat, sec: Section)
    requires ForestOK(cc, forest) && NewLeaf(sec) && d <= |Spine(forest)|
    requires d == 0 ==> sec.path == TitleToSlug(cc, sec.title)
    requires d > 0 ==> FitsUnder(cc, Spine(forest)[d - 1], sec)
    ensures ForestOK(cc, AppendAtDepth(forest, d, sec))
  {
    if d == 0 {
      var f := forest + [sec];
      assert f[..|f| - 1] == forest;
      ReplaceLastOK(cc, f, sec);
    } else {
      AppendNestedOK(cc, forest, d, sec);
    }
  }

  /* ---------- The heading lines of a document ---------- */

  /** What a section records about the heading line it comes from. */
  datatype Entry = Entry(sourceLocation: SourceLocation, level: int, title: string)

  function EntryOf(s: Section): Entry {
    Entry(s.sourceLocation, s.level, s.title)
  }

  function Entries(xs: seq<Section>): (r: seq<Entry>)
    ensures |r| == |xs| && forall i :: 0 <= i < |xs| ==> r[i] == EntryOf(xs[i])
  {
    seq(|xs|, i requires 0 <= i < |xs| => EntryOf(xs[i]))
  }

  /** The recogniser's verdict on each line. `_parse_sections` matches each
      line as it reaches it; matching has no effect, so the fold below takes
      the verdicts in the same order. */
  function Recognise(cc: CharClasses, lines: seq<string>): (ms: seq<Option<HeadingMatch>>)
    ensures |ms| == |lines| && forall i :: 0 <= i < |lines| ==> ms[i] == MatchHeading(cc, lines[i])
  {
    seq(|lines|, i requires 0 <= i < |lines| => MatchHeading(cc, lines[i]))
  }

  /** The headings among the verdicts `ms`, in file order, each with its
      1-based line number in `file`. */
  function Headings(file: string, ms: seq<Option<HeadingMatch>>): (r: seq<Entry>)
    ensures forall k :: 0 <= k < |r| ==>
      && 1 <= r[k].sourceLocation.line <= |ms|
      && r[k].sourceLocation == SourceLocation(file, r[k].sourceLocation.line, None, None)
    ensures forall k, l :: 0 <= k < l < |r| ==> r[k].sourceLocation.line < r[l].sourceLocation.line
  {
    if ms == [] then []
    else
      var n := |ms| - 1;
      var prev := Headings(file, ms[..n]);
      match ms[n]
      case None => prev
      case Some(m) => prev + [Entry(SourceLocation(file, n + 1, None, None), m.level, m.title)]
  }

  /** The verdict `m` reads `level` and `title`. */
  predicate Reads(m: Option<HeadingMatch>, level: int, title: string) {
    m.Some? && m.value.level == level && m.value.title == title
  }

  /** Each entry records what the recogniser read from its line. */
  lemma {:induction false} HeadingsSound(file: string, ms: seq<Option<HeadingMatch>>, k: nat)
    requires k < |Headings(file, ms)|
    ensures var e := Headings(file, ms)[k];
      Reads(ms[e.sourceLocation.line - 1], e.level, e.title)
  {
    var n := |ms| - 1;
    var prev := Headings(file, ms[..n]);
    if k < |prev| {
      HeadingsSound(file, ms[..n], k);
      assert Headings(file, ms)[k] == prev[k];
      assert ms[..n][prev[k].sourceLocation.line - 1] == ms[prev[k].sourceLocation.line - 1];
    }
  }

  /** Every accepted line has its entry. */
  lemma {:induction false} HeadingsComplete(file: string, ms: seq<Option<HeadingMatch>>, i: nat)
    requires i < |ms| && ms[i].Some?
    ensures exists k :: 0 <= k < |Headings(file, ms)| && Headings(file, ms)[k].sourceLocation.line == i + 1
  {
    var n := |ms| - 1;
    var r := Headings(file, ms);
    if i == n {
      assert r[|r| - 1].sourceLocation.line == i + 1;
    } else {
      assert ms[..n][i] == ms[i];
      HeadingsComplete(file, ms[..n], i);
      var k :| 0 <= k < |Headings(file, ms[..n])| && Headings(file, ms[..n])[k].sourceLocation.line == i + 1;
      assert r[k] == Headings(file, ms[..n])[k];
    }
  }

  /** The title of the last level-0 heading, or the empty string when there
      is none. */
  function DocTitle(es: seq<Entry>): (t: string)
    ensures (forall k :: 0 <= k < |es| ==> es[k].level != 0) ==> t == ""
    ensures (exists k :: 0 <= k < |es| && es[k].level == 0) ==>
      exists k :: 0 <= k < |es| && es[k].level == 0 && es[k].title == t &&
        forall l :: k < l < |es| ==> es[l].level != 0
  {
    if es == [] then ""
    else if es[|es| - 1].level == 0 then es[|es| - 1].title
    else DocTitle(es[..|es| - 1])
  }

  /* ---------- The line fold of `_parse_sections` ---------- */

  /** The sections found so far, the stack of open sections (as heads) and
      the document title. */
  datatype ParseState = ParseState(sections: seq<Section>, stack: seq<Section>, title: string)

  /** Stack levels grow strictly from bottom to top. */
  predicate Increasing(stack: seq<Section>) {
    forall i, j :: 0 <= i < j < |stack| ==> stack[i].level < stack[j].level
  }

  /** Pops the open sections whose level is `level` or deeper. */
  function PopDeeper(stack: seq<Section>, level: int): (r: seq<Section>)
    ensures |r| <= |stack| && r == stack[..|r|]
    ensures r != [] ==> r[|r| - 1].level < level
    ensures forall i :: |r| <= i < |stack| ==> stack[i].level >= level
  {
    if stack != [] && stack[|stack| - 1].level >= level then PopDeeper(stack[..|stack| - 1], level)
    else stack
  }

  /** On an increasing stack, popping keeps exactly the sections shallower
      than `level`. */
  lemma PopDeeperKeepsShallower(stack: seq<Section>, level: int)
    requires Increasing(stack)
    ensures forall i :: 0 <= i < |stack| ==>
      (i < |PopDeeper(stack, level)| <==> stack[i].level < level)
  {
  }

  /** The section a heading opens, with no children yet. */
  function Opened(file: string, lineNum: nat, m: HeadingMatch, path: string): Section {
    Section(m.title, m.level, path, SourceLocation(file, lineNum, None, None), [], None)
  }

  /** The path of a section titled `title` whose parent is the top of
      `kept`, or which is top-level when `kept` is empty. */
  function PathUnder(cc: CharClasses, kept: seq<Section>, title: string): string {
    if kept == [] then TitleToSlug(cc, title)
    else kept[|kept| - 1].path + "." + TitleToSlug(cc, title)
  }

  /** A heading line: a level-0 heading restarts the stack and sets the
      title; a deeper one pops the open sections at its level or deeper
      and goes under what remains. */
  function Open(cc: CharClasses, file: string, st: ParseState, lineNum: nat, m: HeadingMatch): (r: ParseState)
    ensures r.title == (if m.level == 0 then m.title else st.title)
    ensures m.level == 0 ==> |r.stack| == 1 && r.sections == st.sections + r.stack
  {
    if m.level == 0 then
      var sec := Opened(file, lineNum, m, TitleToSlug(cc, m.title));
      ParseState(st.sections + [sec], [sec], m.title)
    else
      var kept := PopDeeper(st.stack, m.level);
      var sec := Opened(file, lineNum, m, PathUnder(cc, kept, m.title));
      ParseState(AppendAtDepth(st.sections, |kept|, sec), kept + [sec], st.title)
  }

  /** One line of the loop in `_parse_sections`, given the recogniser's
      verdict on it. */
  function Step(cc: CharClasses, file: string, st: ParseState, lineNum: nat, verdict: Option<HeadingMatch>): (r: ParseState)
    ensures verdict.None? ==> r == st
    ensures verdict.Some? ==> r.stack != [] && r.stack[|r.stack| - 1] == Opened(file, lineNum, verdict.value, r.stack[|r.stack| - 1].path)
  {
    match verdict
    case None => st
    case Some(m) => Open(cc, file, st, lineNum, m)
  }

  /** A heading adds exactly one section, the new top of the stack, at the
      end of the outline; only a level-0 heading changes the title. */
  lemma StepAddsOne(cc: CharClasses, file: string, st: ParseState, lineNum: nat, m: HeadingMatch)
    ensures var r := Step(cc, file, st, lineNum, Some(m));
      && r.stack != []
      && Outline(r.sections) == Outline(st.sections) + [r.stack[|r.stack| - 1]]
      && r.title == (if m.level == 0 then m.title else st.title)
  {
    var r := Step(cc, file, st, lineNum, Some(m));
    var sec := r.stack[|r.stack| - 1];
    if m.level == 0 {
      AppendAtDepthOutline(st.sections, 0, sec);
    } else {
      AppendAtDepthOutline(st.sections, |r.stack| - 1, sec);
    }
  }

  /** The parent `_parse_sections` picks: a level-0 heading is top-level and
      empties the stack; a deeper heading keeps the stack entries below the
      first one at its level or deeper, and goes under the last one kept,
      or to the top level when none is kept. */
  lemma StepPicksParent(cc: CharClasses, file: string, st: ParseState, lineNum: nat, m: HeadingMatch)
    ensures var r := Step(cc, file, st, lineNum, Some(m));
      var d := |r.stack| - 1;
      var sec := r.stack[d];
      && d <= |st.stack| && r.stack[..d] == st.stack[..d]
      && (m.level == 0 ==> d == 0 && r.sections == st.sections + [sec])
      && (m.level > 0 ==> forall i :: d <= i < |st.stack| ==> st.stack[i].level >= m.level)
      && (d == 0 ==> sec.path == TitleToSlug(cc, m.title))
      && (d > 0 ==> FitsUnder(cc, st.stack[d - 1], sec))
  {
  }

  /* ---------- Which section a heading goes under ---------- */

  /** The last section of `xs` shallower than `level`. */
  function LastBelow(xs: seq<Section>, level: int): (r: Option<Section>)
    ensures r.Some? ==> r.value.level < level
    ensures r.Some? ==>
      exists i :: 0 <= i < |xs| && xs[i] == r.value && (forall k :: i < k < |xs| ==> xs[k].level >= level)
    ensures r.None? <==> forall i :: 0 <= i < |xs| ==> xs[i].level >= level
  {
    if xs == [] then None
    else if xs[|xs| - 1].level < level then Some(xs[|xs| - 1])
    else LastBelow(xs[..|xs| - 1], level)
  }

  lemma LastBelowSnoc(xs: seq<Section>, x: Section, level: int)
    ensures LastBelow(xs + [x], level) == if x.level < level then Some(x) else LastBelow(xs, level)
  {
    assert (xs + [x])[..|xs|] == xs;
  }

  /** Popping the sections at `level` or deeper leaves the last section
      shallower than any `below <= level` where it was. */
  lemma {:induction false} LastBelowPopDeeper(stack: seq<Section>, level: int, below: int)
    requires below <= level
    ensures LastBelow(PopDeeper(stack, level), below) == LastBelow(stack, below)
    decreases |stack|
  {
    if stack != [] && stack[|stack| - 1].level >= level {
      LastBelowPopDeeper(stack[..|stack| - 1], level, below);
    }
  }

  /** The path a section gets from the sections before it in document
      order: a level-0 section, or one with no earlier shallower section, is
      top-level and its path is the slug of its title; any other goes under
      the last earlier section shallower than itself. */
  function NestedPath(cc: CharClasses, earlier: seq<Section>, s: Section): string {
    if s.level == 0 then TitleToSlug(cc, s.title)
    else
      match LastBelow(earlier, s.level)
      case None => TitleToSlug(cc, s.title)
      case Some(p) => p.path + "." + TitleToSlug(cc, s.title)
  }

  /** Every section of the outline has the path its predecessors give it. */
  ghost predicate PathsNest(cc: CharClasses, outline: seq<Section>) {
    forall j :: 0 <= j < |outline| ==> outline[j].path == NestedPath(cc, outline[..j], outline[j])
  }

  /** For every level, the top-most stack entry shallower than it is the
      last such section in the outline. */
  ghost predicate StackRemembers(stack: seq<Section>, outline: seq<Section>) {
    forall level :: 1 <= level ==> LastBelow(stack, level) == LastBelow(outline, level)
  }

  lemma PathsNestSnoc(cc: CharClasses, outline: seq<Section>, sec: Section)
    requires PathsNest(cc, outline) && sec.path == NestedPath(cc, outline, sec)
    ensures PathsNest(cc, outline + [sec])
  {
    var o := outline + [sec];
    forall j | 0 <= j < |o|
      ensures o[j].path == NestedPath(cc, o[..j], o[j])
    {
      if j < |outline| {
        assert o[..j] == outline[..j];
      } else {
        assert o[..j] == outline;
      }
    }
  }

  lemma OpenTopNests(cc: CharClasses, file: string, st: ParseState, lineNum: nat, m: HeadingMatch)
    requires m.level == 0
    ensures var r := Open(cc, file, st, lineNum, m);
      var sec := r.stack[0];
      && StackRemembers(r.stack, Outline(st.sections) + [sec])
      && sec.path == NestedPath(cc, Outline(st.sections), sec)
  {
    var r := Open(cc, file, st, lineNum, m);
    var sec := r.stack[0];
    forall level | 1 <= level
      ensures LastBelow(r.stack, level) == LastBelow(Outline(st.sections) + [sec], level)
    {
      LastBelowSnoc([], sec, level);
      LastBelowSnoc(Outline(st.sections), sec, level);
    }
  }

  /** Popping at the new section's level and pushing it keeps the stack
      remembering the outline with the section added. */
  lemma PushRemembers(stack: seq<Section>, o: seq<Section>, sec: Section)
    requires StackRemembers(stack, o)
    ensures StackRemembers(PopDeeper(stack, sec.level) + [sec], o + [sec])
  {
    var kept := PopDeeper(stack, sec.level);
    forall level | 1 <= level
      ensures LastBelow(kept + [sec], level) == LastBelow(o + [sec], level)
    {
      LastBelowSnoc(kept, sec, level);
      LastBelowSnoc(o, sec, level);
      if level <= sec.level {
        LastBelowPopDeeper(stack, sec.level, level);
      }
    }
  }

  /** A section placed under the top of the popped stack has the path the
      outline's last shallower section gives it. */
  lemma PushedPathNests(cc: CharClasses, stack: seq<Section>, o: seq<Section>, sec: Section)
    requires sec.level > 0 && StackRemembers(stack, o)
    requires sec.path == PathUnder(cc, PopDeeper(stack, sec.level), sec.title)
    ensures sec.path == NestedPath(cc, o, sec)
  {
    var kept := PopDeeper(stack, sec.level);
    LastBelowPopDeeper(stack, sec.level, sec.level);
    if kept != [] {
      assert LastBelow(kept, sec.level) == Some(kept[|kept| - 1]);
    }
  }

  lemma OpenNestedNests(cc: CharClasses, file: string, st: ParseState, lineNum: nat, m: HeadingMatch)
    requires m.level > 0 && StackRemembers(st.stack, Outline(st.sections))
    ensures var r := Open(cc, file, st, lineNum, m);
      var sec := r.stack[|r.stack| - 1];
      && StackRemembers(r.stack, Outline(st.sections) + [sec])
      && sec.path == NestedPath(cc, Outline(st.sections), sec)
  {
    var kept := PopDeeper(st.stack, m.level);
    var sec := Opened(file, lineNum, m, PathUnder(cc, kept, m.title));
    assert Open(cc, file, st, lineNum, m).stack == kept + [sec];
    PushRemembers(st.stack, Outline(st.sections), sec);
    PushedPathNests(cc, st.stack, Outline(st.sections), sec);
  }

  /** The nesting parts of the invariant survive a step. */
  lemma StepKeepsNesting(cc: CharClasses, file: string, st: ParseState, lineNum: nat, m: Option<HeadingMatch>)
    requires StackRemembers(st.stack, Outline(st.sections)) && PathsNest(cc, Outline(st.sections))
    ensures var r := Step(cc, file, st, lineNum, m);
      StackRemembers(r.stack, Outline(r.sections)) && PathsNest(cc, Outline(r.sections))
  {
    if m.Some? {
      var r := Step(cc, file, st, lineNum, m);
      var sec := r.stack[|r.stack| - 1];
      StepAddsOne(cc, file, st, lineNum, m.value);
      if m.value.level == 0 {
        OpenTopNests(cc, file, st, lineNum, m.value);
      } else {
        OpenNestedNests(cc, file, st, lineNum, m.value);
      }
      PathsNestSnoc(cc, Outline(st.sections), sec);
    }
  }

  /** What holds after each line: the stack is the spine of the forest, its
      levels increase, the forest is well formed, its outline lists the
      headings seen so far in order, and the title is the last level-0 one. */
  ghost predicate Inv(cc: CharClasses, file: string, ms: seq<Option<HeadingMatch>>, st: ParseState) {
    && st.stack == Spine(st.sections)
    && Increasing(st.stack)
    && ForestOK(cc, st.sections)
    && Entries(Outline(st.sections)) == Headings(file, ms)
    && st.title == DocTitle(Headings(file, ms))
    && StackRemembers(st.stack, Outline(st.sections))
    && PathsNest(cc, Outline(st.sections))
  }

  /** Heading levels run from 0 to 5, as `={1,6}` allows. */
  predicate LevelsInRange(ms: seq<Option<HeadingMatch>>) {
    forall i :: 0 <= i < |ms| && ms[i].Some? ==> ms[i].value.level <= 5
  }

  lemma EntriesConcat(a: seq<Section>, b: seq<Section>)
    ensures Entries(a + b) == Entries(a) + Entries(b)
  {
  }

  lemma DocTitleSnoc(es: seq<Entry>, e: Entry)
    ensures DocTitle(es + [e]) == if e.level == 0 then e.title else DocTitle(es)
  {
    assert (es + [e])[..|es|] == es;
  }

  /** The entry a verdict adds to the headings, if any. */
  function NewEntries(file: string, lineNum: nat, m: Option<HeadingMatch>): seq<Entry> {
    if m.Some? then [Entry(SourceLocation(file, lineNum, None, None), m.value.level, m.value.title)] else []
  }

  lemma HeadingsLast(file: string, ms: seq<Option<HeadingMatch>>)
    requires ms != []
    ensures Headings(file, ms) == Headings(file, ms[..|ms| - 1]) + NewEntries(file, |ms|, ms[|ms| - 1])
  {
  }

  /** The outline and title parts of the invariant survive a step. */
  lemma StepKeepsHeadings(cc: CharClasses, file: string, es: seq<Entry>, st: ParseState, lineNum: nat, m: Option<HeadingMatch>)
    requires Entries(Outline(st.sections)) == es && st.title == DocTitle(es)
    ensures var r := Step(cc, file, st, lineNum, m);
      && Entries(Outline(r.sections)) == es + NewEntries(file, lineNum, m)
      && r.title == DocTitle(es + NewEntries(file, lineNum, m))
  {
    if m.Some? {
      var r := Step(cc, file, st, lineNum, m);
      var sec := r.stack[|r.stack| - 1];
      StepAddsOne(cc, file, st, lineNum, m.value);
      EntriesConcat(Outline(st.sections), [sec]);
      DocTitleSnoc(es, EntryOf(sec));
    } else {
      assert es + [] == es;
    }
  }

  lemma OpenTopKeepsTree(cc: CharClasses, file: string, st: ParseState, lineNum: nat, m: HeadingMatch)
    requires ForestOK(cc, st.sections) && m.level == 0
    ensures var r := Open(cc, file, st, lineNum, m);
      r.stack == Spine(r.sections) && Increasing(r.stack) && ForestOK(cc, r.sections)
  {
    var sec := Opened(file, lineNum, m, TitleToSlug(cc, m.title));
    assert st.sections + [sec] == AppendAtDepth(st.sections, 0, sec);
    AppendAtDepthSpine(st.sections, 0, sec);
    AppendAtDepthOK(cc, st.sections, 0, sec);
  }

  /** Pushing a section deeper than the top keeps the stack increasing. */
  lemma PushIncreasing(kept: seq<Section>, sec: Section)
    requires Increasing(kept) && (kept != [] ==> kept[|kept| - 1].level < sec.level)
    ensures Increasing(kept + [sec])
  {
  }

  lemma PrefixIncreasing(stack: seq<Section>, d: nat)
    requires Increasing(stack) && d <= |stack|
    ensures Increasing(stack[..d])
  {
  }

  lemma OpenNestedKeepsTree(cc: CharClasses, file: string, st: ParseState, lineNum: nat, m: HeadingMatch)
    requires st.stack == Spine(st.sections) && Increasing(st.stack) && ForestOK(cc, st.sections)
    requires 0 < m.level <= 5
    ensures var r := Open(cc, file, st, lineNum, m);
      r.stack == Spine(r.sections) && Increasing(r.stack) && ForestOK(cc, r.sections)
  {
    var kept := PopDeeper(st.stack, m.level);
    var d := |kept|;
    var sec := Opened(file, lineNum, m, PathUnder(cc, kept, m.title));
    var r := Open(cc, file, st, lineNum, m);
    assert r == ParseState(AppendAtDepth(st.sections, d, sec), kept + [sec], st.title);
    AppendAtDepthSpine(st.sections, d, sec);
    PrefixIncreasing(st.stack, d);
    PushIncreasing(kept, sec);
    if d > 0 {
      assert Spine(st.sections)[d - 1] == kept[d - 1];
      assert FitsUnder(cc, Spine(st.sections)[d - 1], sec);
    }
    AppendAtDepthOK(cc, st.sections, d, sec);
  }

  /** The stack and tree parts of the invariant survive a step. */
  lemma StepKeepsTree(cc: CharClasses, file: string, st: ParseState, lineNum: nat, m: Option<HeadingMatch>)
    requires st.stack == Spine(st.sections) && Increasing(st.stack) && ForestOK(cc, st.sections)
    requires m.Some? ==> m.value.level <= 5
    ensures var r := Step(cc, file, st, lineNum, m);
      r.stack == Spine(r.sections) && Increasing(r.stack) && ForestOK(cc, r.sections)
  {
    if m.Some? {
      if m.value.level == 0 {
        OpenTopKeepsTree(cc, file, st, lineNum, m.value);
      } else {
        OpenNestedKeepsTree(cc, file, st, lineNum, m.value);
      }
    }
  }

  lemma StepKeepsInv(cc: CharClasses, file: string, ms: seq<Option<HeadingMatch>>, st: ParseState)
    requires ms != [] && Inv(cc, file, ms[..|ms| - 1], st)
    requires ms[|ms| - 1].Some? ==> ms[|ms| - 1].value.level <= 5
    ensures Inv(cc, file, ms, Step(cc, file, st, |ms|, ms[|ms| - 1]))
  {
    StepKeepsTree(cc, file, st, |ms|, ms[|ms| - 1]);
    HeadingsLast(file, ms);
    StepKeepsHeadings(cc, file, Headings(file, ms[..|ms| - 1]), st, |ms|, ms[|ms| - 1]);
    StepKeepsNesting(cc, file, st, |ms|, ms[|ms| - 1]);
  }

  /** Before the first line: no sections, an empty stack, no title. */
  lemma InitInv(cc: CharClasses, file: string)
    ensures Inv(cc, file, [], ParseState([], [], ""))
  {
    assert Outline([]) == [];
  }

  /** `_parse_sections`'s loop over the verdicts on all lines so far. */
  function Fold(cc: CharClasses, file: string, ms: seq<Option<HeadingMatch>>): (st: ParseState)
    requires LevelsInRange(ms)
    ensures Inv(cc, file, ms, st)
  {
    if ms == [] then InitInv(cc, file); ParseState([], [], "")
    else
      var n := |ms| - 1;
      assert forall i :: 0 <= i < n ==> ms[..n][i] == ms[i];
      var prev := Fold(cc, file, ms[..n]);
      StepKeepsInv(cc, file, ms, prev);
      Step(cc, file, prev, n + 1, ms[n])
  }

  /** `_parse_sections(lines, file_path)`: the top-level sections and the
      document title. Every heading line becomes exactly one section, the
      sections appear in the forest's pre-order in line order, and the title
      is that of the last level-0 heading. */
  function ParseSections(cc: CharClasses, file: string, lines: seq<string>): (r: (seq<Section>, string))
    ensures ForestOK(cc, r.0)
    ensures Entries(Outline(r.0)) == Headings(file, Recognise(cc, lines))
    ensures r.1 == DocTitle(Headings(file, Recognise(cc, lines)))
    ensures PathsNest(cc, Outline(r.0))
  {
    if lines == [] then ([], "")
    else
      var st := Fold(cc, file, Recognise(cc, lines));
      (st.sections, st.title)
  }

  /** A section of an outline that lists the headings of `ms` sits on a
      line the recogniser accepted, and the recogniser read the section's
      level and title from that line. */
  lemma EntryFromVerdict(file: string, ms: seq<Option<HeadingMatch>>, o: seq<Section>, j: nat)
    requires Entries(o) == Headings(file, ms) && j < |o|
    ensures 1 <= o[j].sourceLocation.line <= |ms|
    ensures o[j].sourceLocation == SourceLocation(file, o[j].sourceLocation.line, None, None)
    ensures Reads(ms[o[j].sourceLocation.line - 1], o[j].level, o[j].title)
  {
    assert EntryOf(o[j]) == Headings(file, ms)[j];
    HeadingsSound(file, ms, j);
  }

  /** Every heading line of `lines` gives a section. */
  lemma HeadingLinesBecomeSections(cc: CharClasses, file: string, lines: seq<string>, i: nat)
    requires i < |lines| && MatchHeading(cc, lines[i]).Some?
    ensures var o := Outline(ParseSections(cc, file, lines).0);
      exists j :: 0 <= j < |o| && o[j].sourceLocation.line == i + 1
  {
    var o := Outline(ParseSections(cc, file, lines).0);
    VerdictHasEntry(file, Recognise(cc, lines), o, i);
  }

  lemma VerdictHasEntry(file: string, ms: seq<Option<HeadingMatch>>, o: seq<Section>, i: nat)
    requires Entries(o) == Headings(file, ms) && i < |ms| && ms[i].Some?
    ensures exists j :: 0 <= j < |o| && o[j].sourceLocation.line == i + 1
  {
    HeadingsComplete(file, ms, i);
    var k :| 0 <= k < |Headings(file, ms)| && Headings(file, ms)[k].sourceLocation.line == i + 1;
    assert EntryOf(o[k]) == Headings(file, ms)[k];
  }
}

=== FILE: chars.dfy ===
/**
 Character classes and the small string helpers shared by the slug functions,
 the path helper and the heading recogniser.

 Python's regular-expression classes `\w` and `\s` and its `str.lower()` are
 Unicode tables; they are not spelled out here. Every function that needs them
 takes a `CharClasses` value, and the properties proved about the slug functions
 assume only what `CharClasses.Valid` lists. `Ascii` is one concrete instance,
 proved valid, so the assumptions can be met.
 */
module Chars {

  /** `isWord` plays `\w`, `isSpace` plays `\s` (and `str.isspace`), `lower`
      is `str.lower()` applied to one character. */
  datatype CharClasses = CharClasses(isWord: char -> bool, isSpace: char -> bool, lower: char -> char)
  {
    /** What the proofs assume of the tables; Python's Unicode tables satisfy
        each of these for the characters involved. */
    ghost predicate Valid() {
      && (forall c :: lower(lower(c)) == lower(c))
      && (forall c :: isWord(lower(c)) == isWord(c))
      && (forall c :: isSpace(lower(c)) == isSpace(c))
      && lower('-') == '-'
      && isWord('_') && !isSpace('_')
      && !isWord('-') && !isSpace('-')
      && !isWord('.') && !isSpace('.')
      && !isSpace('=')
      && isSpace(' ') && isSpace('\n')
    }
  }

  predicate AsciiIsWord(c: char) {
    ('a' <= c <= 'z') || ('A' <= c <= 'Z') || ('0' <= c <= '9') || c == '_'
  }

  /** The ASCII characters Python's `\s` matches: tab, line feed, vertical
      tab, form feed, carriage return, the four separators 0x1C-0x1F, space. */
  predicate AsciiIsSpace(c: char) {
    (9 <= c as int <= 13) || (28 <= c as int <= 32)
  }

  function AsciiLower(c: char): char {
    if 'A' <= c <= 'Z' then (c as int + 32) as char else c
  }

  const Ascii: CharClasses := CharClasses(AsciiIsWord, AsciiIsSpace, AsciiLower)

  lemma AsciiIsValid()
    ensures Ascii.Valid()
  {
  }

  /** Number of leading characters of `s` that satisfy `p`. */
  function CountLeading(s: string, p: char -> bool): (n: nat)
    ensures n <= |s|
    ensures forall i :: 0 <= i < n ==> p(s[i])
    ensures n < |s| ==> !p(s[n])
  {
    if s == [] || !p(s[0]) then 0 else 1 + CountLeading(s[1..], p)
  }

  /** Number of trailing characters of `s` that satisfy `p`. */
  function CountTrailing(s: string, p: char -> bool): (n: nat)
    ensures n <= |s|
    ensures forall i :: |s| - n <= i < |s| ==> p(s[i])
    ensures n < |s| ==> !p(s[|s| - n - 1])
  {
    if s == [] || !p(s[|s| - 1]) then 0 else 1 + CountTrailing(s[..|s| - 1], p)
  }

  /** The class `-`. */
  predicate IsDash(c: char) {
    c == '-'
  }

  /** `s.lstrip(chars)` for the characters satisfying `p`. */
  function TrimStart(s: string, p: char -> bool): (r: string)
    ensures |r| <= |s|
    ensures r == s[|s| - |r|..]
    ensures forall i :: 0 <= i < |s| - |r| ==> p(s[i])
    ensures r == [] || !p(r[0])
  {
    s[CountLeading(s, p)..]
  }

  /** `s.rstrip(chars)` for the characters satisfying `p`. */
  function TrimEnd(s: string, p: char -> bool): (r: string)
    ensures |r| <= |s|
    ensures r == s[..|r|]
    ensures forall i :: |r| <= i < |s| ==> p(s[i])
    ensures r == [] || !p(r[|r| - 1])
  {
    s[..|s| - CountTrailing(s, p)]
  }

  /** `s.strip(chars)`: both ends trimmed. */
  function Strip(s: string, p: char -> bool): (r: string)
    ensures r == [] || (!p(r[0]) && !p(r[|r| - 1]))
    ensures (s == [] || (!p(s[0]) && !p(s[|s| - 1]))) ==> r == s
    ensures forall i :: 0 <= i < |r| ==> r[i] in s
  {
    TrimEnd(TrimStart(s, p), p)
  }

  /** What stripping removes: the result is the slice of `s` starting at
      `a`, and every character before or after that slice is in the class. */
  lemma StripIsInnerSlice(s: string, p: char -> bool) returns (a: nat)
    ensures a + |Strip(s, p)| <= |s|
    ensures Strip(s, p) == s[a..a + |Strip(s, p)|]
    ensures forall i :: 0 <= i < a ==> p(s[i])
    ensures forall i :: a + |Strip(s, p)| <= i < |s| ==> p(s[i])
  {
    var t := TrimStart(s, p);
    a := |s| - |t|;
    var r := Strip(s, p);
    forall i | a <= i < |s|
      ensures s[i] == t[i - a]
    {
    }
    assert r == t[..|r|];
    assert r == s[a..a + |r|];
  }

  /** Python's `str.lower()`, one character at a time. Mappings that change
      the length or depend on the neighbours (the final sigma) are not
      expressible here. */
  function Lower(cc: CharClasses, s: string): (r: string)
    ensures |r| == |s|
    ensures cc.Valid() ==> IsLowercase(cc, r)
    ensures IsLowercase(cc, s) ==> r == s
  {
    seq(|s|, i requires 0 <= i < |s| => cc.lower(s[i]))
  }

  /** `s == s.lower()` */
  predicate IsLowercase(cc: CharClasses, s: string) {
    forall i :: 0 <= i < |s| ==> cc.lower(s[i]) == s[i]
  }

  /** `re.sub(pattern, "-", s)` where `pattern` is `[...]+` for the character
      class `p`: every maximal run of characters satisfying `p` becomes one `-`.
      Each character of the result is an inserted `-` or a character of `s`
      outside the class. */
  function ReplaceRuns(s: string, p: char -> bool): (r: string)
    ensures |r| <= |s|
    ensures forall i :: 0 <= i < |r| ==> r[i] == '-' || (r[i] in s && !p(r[i]))
    decreases |s|
  {
    if s == [] then []
    else if p(s[0]) then "-" + ReplaceRuns(s[CountLeading(s, p)..], p)
    else [s[0]] + ReplaceRuns(s[1..], p)
  }

  /** No two neighbours in `s` both belong to the class `p`. */
  predicate NoAdjacent(s: string, p: char -> bool) {
    forall i :: 0 <= i < |s| - 1 ==> !(p(s[i]) && p(s[i + 1]))
  }

  /** A run is replaced by a single character, and the character after a run
      is outside the class: the result never holds two class members side by
      side. */
  lemma {:induction false} ReplaceRunsNoAdjacent(s: string, p: char -> bool)
    ensures NoAdjacent(ReplaceRuns(s, p), p)
    decreases |s|
  {
    if s == [] {
    } else if p(s[0]) {
      var n := CountLeading(s, p);
      ReplaceRunsNoAdjacent(s[n..], p);
      var t := ReplaceRuns(s[n..], p);
      if t != [] {
        assert t[0] == s[n..][0] by {
          assert n < |s|;
          assert s[n..] == [s[n]] + s[n + 1..];
        }
      }
    } else {
      ReplaceRunsNoAdjacent(s[1..], p);
    }
  }

  /** When every class member of `s` is already a lone `-`, the replacement
      changes nothing. */
  lemma {:induction false} ReplaceRunsIdentity(s: string, p: char -> bool)
    requires forall i :: 0 <= i < |s| ==> p(s[i]) ==> s[i] == '-'
    requires NoAdjacent(s, p)
    ensures ReplaceRuns(s, p) == s
    decreases |s|
  {
    if s == [] {
    } else if p(s[0]) {
      assert CountLeading(s, p) == 1;
      ReplaceRunsIdentity(s[1..], p);
    } else {
      ReplaceRunsIdentity(s[1..], p);
    }
  }

  /** A slice of a string without neighbouring class members has none either. */
  lemma NoAdjacentSlice(s: string, a: nat, b: nat, p: char -> bool)
    requires a <= b <= |s|
    requires NoAdjacent(s, p)
    ensures NoAdjacent(s[a..b], p)
  {
    forall i | 0 <= i < b - a - 1
      ensures !(p(s[a..b][i]) && p(s[a..b][i + 1]))
    {
      assert s[a..b][i] == s[a + i] && s[a..b][i + 1] == s[a + i + 1];
    }
  }

  /** Stripping only removes characters from the ends. */
  lemma StripNoAdjacent(s: string, p: char -> bool)
    requires NoAdjacent(s, p)
    ensures NoAdjacent(Strip(s, p), p)
  {
    var t := TrimStart(s, p);
    NoAdjacentSlice(s, |s| - |t|, |s|, p);
    var r := TrimEnd(t, p);
    NoAdjacentSlice(t, 0, |r|, p);
  }

  /** The characters of `s` that belong to the class `p`, in their order. */
  function Filter(s: string, p: char -> bool): (r: string)
    ensures |r| <= |s|
    ensures forall i :: 0 <= i < |r| ==> p(r[i]) && r[i] in s
    ensures forall c :: c in s && p(c) ==> c in r
    ensures (forall i :: 0 <= i < |s| ==> p(s[i])) ==> r == s
  {
    if s == [] then []
    else (if p(s[0]) then [s[0]] else []) + Filter(s[1..], p)
  }

  lemma {:induction false} FilterConcat(a: string, b: string, p: char -> bool)
    ensures Filter(a + b, p) == Filter(a, p) + Filter(b, p)
  {
    if a == [] {
      assert a + b == b;
    } else {
      assert (a + b)[1..] == a[1..] + b;
      FilterConcat(a[1..], b, p);
    }
  }

  /** Nothing passes the filter exactly when no character is in the class. */
  lemma {:induction false} FilterNone(s: string, p: char -> bool)
    ensures Filter(s, p) == [] <==> forall i :: 0 <= i < |s| ==> !p(s[i])
  {
    if s != [] {
      FilterNone(s[1..], p);
      if forall i :: 0 <= i < |s[1..]| ==> !p(s[1..][i]) {
        assert forall i :: 1 <= i < |s| ==> !p(s[i]) by {
          forall i | 1 <= i < |s| ensures !p(s[i]) {
            assert s[i] == s[1..][i - 1];
          }
        }
      }
    }
  }

  /** Filtering twice is filtering once by both classes. */
  lemma {:induction false} FilterFilter(s: string, p: char -> bool, q: char -> bool, pq: char -> bool)
    requires forall i :: 0 <= i < |s| ==> pq(s[i]) == (p(s[i]) && q(s[i]))
    ensures Filter(Filter(s, p), q) == Filter(s, pq)
  {
    if s != [] {
      FilterFilter(s[1..], p, q, pq);
      var head := if p(s[0]) then [s[0]] else [];
      FilterConcat(head, Filter(s[1..], p), q);
    }
  }

  /** Replacing runs of the class `p` by `-` keeps, in order, every character
      outside the class other than `-` itself, and adds no other. */
  lemma {:induction false} ReplaceRunsFilter(s: string, p: char -> bool, notDash: char -> bool, q: char -> bool)
    requires forall c :: notDash(c) == (c != '-')
    requires forall i :: 0 <= i < |s| ==> q(s[i]) == (!p(s[i]) && s[i] != '-')
    ensures Filter(ReplaceRuns(s, p), notDash) == Filter(s, q)
    decreases |s|
  {
    if s == [] {
    } else if p(s[0]) {
      var n := CountLeading(s, p);
      ReplaceRunsFilter(s[n..], p, notDash, q);
      FilterConcat("-", ReplaceRuns(s[n..], p), notDash);
      assert s == s[..n] + s[n..];
      FilterConcat(s[..n], s[n..], q);
      FilterNone(s[..n], q);
    } else {
      ReplaceRunsFilter(s[1..], p, notDash, q);
      FilterConcat([s[0]], ReplaceRuns(s[1..], p), notDash);
    }
  }

  lemma TrimStartFilter(s: string, p: char -> bool, q: char -> bool)
    requires forall c :: p(c) ==> !q(c)
    ensures Filter(TrimStart(s, p), q) == Filter(s, q)
  {
    var t := TrimStart(s, p);
    var k := |s| - |t|;
    assert s == s[..k] + t;
    FilterConcat(s[..k], t, q);
    FilterNone(s[..k], q);
  }

  lemma TrimEndFilter(s: string, p: char -> bool, q: char -> bool)
    requires forall c :: p(c) ==> !q(c)
    ensures Filter(TrimEnd(s, p), q) == Filter(s, q)
  {
    var r := TrimEnd(s, p);
    var k := |r|;
    var tail := s[k..];
    assert r == s[..k];
    assert s == s[..k] + tail;
    assert forall i :: 0 <= i < |tail| ==> !q(tail[i]) by {
      forall i | 0 <= i < |tail| ensures !q(tail[i]) {
        assert tail[i] == s[|r| + i];
      }
    }
    FilterConcat(r, tail, q);
    FilterNone(tail, q);
  }

  /** Stripping removes only characters of the class `p`, so a filter that
      rejects them sees the same characters before and after. */
  lemma StripFilter(s: string, p: char -> bool, q: char -> bool)
    requires forall c :: p(c) ==> !q(c)
    ensures Filter(Strip(s, p), q) == Filter(s, q)
  {
    TrimStartFilter(s, p, q);
    TrimEndFilter(TrimStart(s, p), p, q);
  }

  /** `re.sub(pattern, "-", s)` when no two class members of `s` touch: each
      class member is replaced by `-` in place. */
  function DashFor(s: string, p: char -> bool): (r: string)
    ensures |r| == |s|
  {
    seq(|s|, i requires 0 <= i < |s| => if p(s[i]) then '-' else s[i])
  }

  lemma {:induction false} ReplaceRunsSingles(s: string, p: char -> bool)
    requires NoAdjacent(s, p)
    ensures ReplaceRuns(s, p) == DashFor(s, p)
    decreases |s|
  {
    if s != [] {
      NoAdjacentSlice(s, 1, |s|, p);
      ReplaceRunsSingles(s[1..], p);
      if p(s[0]) {
        assert CountLeading(s, p) == 1 by {
          if |s| > 1 {
            assert !p(s[1]);
          }
        }
      }
      assert DashFor(s, p) == DashFor(s[..1], p) + DashFor(s[1..], p);
    }
  }

  /** A string assembled from characters of `s` and inserted `-` keeps any
      character property that holds of `s` and of `-`. */
  lemma CharsFromParts(s: string, r: string, P: char -> bool)
    requires forall i :: 0 <= i < |s| ==> P(s[i])
    requires P('-')
    requires forall i :: 0 <= i < |r| ==> r[i] == '-' || r[i] in s
    ensures forall i :: 0 <= i < |r| ==> P(r[i])
  {
    forall i | 0 <= i < |r|
      ensures P(r[i])
    {
      if r[i] != '-' {
        var j :| 0 <= j < |s| && s[j] == r[i];
      }
    }
  }
}

=== FILE: doc_path.dfy ===
/**
 `strip_doc_extension` from src/dacli/parser_utils.py: the file-path prefix of
 a document with only a known documentation extension removed.

 A path is given as `str(path)`, the normalised string `pathlib` produces. Its
 final component and suffix follow `PurePosixPath`: the name is what follows
 the last `/`, and the suffix runs from the name's last `.` provided that dot
 is neither the first nor the last character of the name.
 */
module DocPath {
  import opened Chars

  /** `KNOWN_DOC_EXTENSIONS` */
  const KnownDocExtensions: set<string> := {".md", ".adoc", ".asciidoc"}

  /** Index of the last occurrence of `c` in `s`, or -1. */
  function LastIndexOf(s: string, c: char): (i: int)
    ensures -1 <= i < |s|
    ensures i >= 0 ==> s[i] == c
    ensures forall j :: i < j < |s| ==> s[j] != c
  {
    if s == [] then -1
    else if s[|s| - 1] == c then |s| - 1
    else LastIndexOf(s[..|s| - 1], c)
  }

  /** `Path.name`: the part after the last `/`. */
  function Name(path: string): (name: string)
    ensures '/' !in name
    ensures |name| <= |path| && path[|path| - |name|..] == name
  {
    path[LastIndexOf(path, '/') + 1..]
  }

  /** The name is everything after the last `/`: when it is not the whole
      path, a `/` comes right before it. */
  lemma NameFollowsLastSlash(path: string)
    ensures |Name(path)| < |path| ==> path[|path| - |Name(path)| - 1] == '/'
  {
  }

  /** `Path.suffix`: `name[i:]` for the last dot `i` of the name when
      `0 < i < len(name) - 1`, otherwise empty. */
  function Suffix(path: string): (suffix: string)
    ensures |suffix| <= |path| && path[|path| - |suffix|..] == suffix
    ensures suffix != [] ==> suffix[0] == '.' && '.' !in suffix[1..] && '/' !in suffix
    ensures suffix != [] ==> |suffix| >= 2 && |suffix| < |Name(path)|
  {
    var name := Name(path);
    var i := LastIndexOf(name, '.');
    if 0 < i < |name| - 1 then name[i..] else ""
  }

  /** `str(file_path).replace("\\", "/")` */
  function ForwardSlashes(s: string): (r: string)
    ensures |r| == |s|
    ensures '\\' !in r
  {
    seq(|s|, i requires 0 <= i < |s| => if s[i] == '\\' then '/' else s[i])
  }

  /** Each backslash becomes `/`, and every other character stays where it
      was. */
  lemma ForwardSlashesKeepsOthers(s: string)
    ensures forall i :: 0 <= i < |s| && s[i] == '\\' ==> ForwardSlashes(s)[i] == '/'
    ensures forall i :: 0 <= i < |s| && s[i] != '\\' ==> ForwardSlashes(s)[i] == s[i]
    ensures '\\' !in s ==> ForwardSlashes(s) == s
  {
  }

  predicate IsKnownDocExtension(cc: CharClasses, suffix: string) {
    Lower(cc, suffix) in KnownDocExtensions
  }

  function CountChar(s: string, c: char): (n: nat)
    ensures n <= |s|
  {
    if s == [] then 0 else CountChar(s[..|s| - 1], c) + (if s[|s| - 1] == c then 1 else 0)
  }

  /** `strip_doc_extension(file_path)`. */
  function StripDocExtension(cc: CharClasses, path: string): (r: string)
    ensures '\\' !in r
    ensures IsKnownDocExtension(cc, Suffix(path)) ==>
              |r| + |Suffix(path)| == |path| && r + ForwardSlashes(Suffix(path)) == ForwardSlashes(path)
    ensures !IsKnownDocExtension(cc, Suffix(path)) ==> r == ForwardSlashes(path)
  {
    var pathStr := ForwardSlashes(path);
    var suffix := Suffix(path);
    if IsKnownDocExtension(cc, suffix) then
      assert pathStr[|pathStr| - |suffix|..] == ForwardSlashes(suffix);
      pathStr[..|pathStr| - |suffix|]
    else
      pathStr
  }

  lemma {:induction false} CountCharConcat(a: string, b: string, c: char)
    ensures CountChar(a + b, c) == CountChar(a, c) + CountChar(b, c)
    decreases |b|
  {
    if b == [] {
      assert a + b == a;
    } else {
      assert (a + b)[..|a + b| - 1] == a + b[..|b| - 1];
      CountCharConcat(a, b[..|b| - 1], c);
    }
  }

  /** A string whose only dot is its first character holds exactly one dot. */
  lemma {:induction false} CountCharSingle(s: string, c: char)
    requires s != [] && s[0] == c && c !in s[1..]
    ensures CountChar(s, c) == 1
    decreases |s|
  {
    if |s| == 1 {
      assert s[..0] == [];
    } else {
      assert s[..|s| - 1][1..] == s[1..|s| - 1];
      assert s[|s| - 1] == s[1..][|s| - 2];
      CountCharSingle(s[..|s| - 1], c);
    }
  }

  /** Only the extension's own dot goes: every other dot of the path, such as
      those of a version number `v1.2.3`, is still in the result. */
  lemma StripDocExtensionKeepsOtherDots(cc: CharClasses, path: string)
    ensures var r := StripDocExtension(cc, path);
            CountChar(r, '.') + (if IsKnownDocExtension(cc, Suffix(path)) then 1 else 0)
              == CountChar(ForwardSlashes(path), '.')
  {
    var suffix := Suffix(path);
    if IsKnownDocExtension(cc, suffix) {
      assert suffix != [] by {
        assert Lower(cc, []) == [];
      }
      var fs := ForwardSlashes(suffix);
      assert fs[0] == '.';
      assert '.' !in fs[1..] by {
        forall i | 1 <= i < |fs|
          ensures fs[i] != '.'
        {
          assert suffix[i] == suffix[1..][i - 1];
        }
      }
      CountCharSingle(fs, '.');
      CountCharConcat(StripDocExtension(cc, path), fs, '.');
    }
  }

  lemma {:induction false} LastIndexOfConcat(a: string, b: string, c: char)
    ensures LastIndexOf(a + b, c) == if c in b then |a| + LastIndexOf(b, c) else LastIndexOf(a, c)
    decreases |b|
  {
    if b == [] {
      assert a + b == a;
    } else {
      assert (a + b)[..|a + b| - 1] == a + b[..|b| - 1];
      LastIndexOfConcat(a, b[..|b| - 1], c);
      assert b == b[..|b| - 1] + [b[|b| - 1]];
    }
  }

  /** The property-based tests `test_strip_only_known_extensions` and
      `test_strip_preserves_dots_in_filename` (tests/test_property_based.py)
      for known extensions: appending a known extension to a file name and
      stripping it gives the name back, dots and all. `Lower(cc, ext) == ext` says the character tables leave
      the lowercase extension alone. */
  lemma StripKnownExtension(cc: CharClasses, stem: string, ext: string)
    requires ext in KnownDocExtensions && Lower(cc, ext) == ext
    requires stem != [] && stem[|stem| - 1] != '/'
    ensures StripDocExtension(cc, stem + ext) == ForwardSlashes(stem)
  {
    KnownExtensionShape(ext);
    SuffixAfterName(stem, ext);
    var path := stem + ext;
    assert ForwardSlashes(path)[..|stem|] == ForwardSlashes(stem);
  }

  /** Appending a dot-led extension without further dots or slashes to a
      path whose final component is non-empty makes it the suffix. */
  lemma SuffixAfterName(stem: string, ext: string)
    requires |ext| >= 2 && ext[0] == '.' && '/' !in ext && '.' !in ext[1..]
    requires stem != [] && stem[|stem| - 1] != '/'
    ensures Suffix(stem + ext) == ext
  {
    NameConcat(stem, ext);
    var name := Name(stem);
    LastDotOfExtension(name, ext);
    assert (name + ext)[|name|..] == ext;
  }

  lemma NameConcat(stem: string, ext: string)
    requires '/' !in ext
    requires stem != [] && stem[|stem| - 1] != '/'
    ensures Name(stem + ext) == Name(stem) + ext
    ensures Name(stem) != []
  {
    LastIndexOfConcat(stem, ext, '/');
    var k := LastIndexOf(stem, '/') + 1;
    assert (stem + ext)[k..] == stem[k..] + ext;
  }

  lemma LastDotOfExtension(name: string, ext: string)
    requires ext != [] && ext[0] == '.' && '.' !in ext[1..]
    ensures LastIndexOf(name + ext, '.') == |name|
  {
    LastIndexOfConcat(name, ext, '.');
  }

  lemma KnownExtensionShape(ext: string)
    requires ext in KnownDocExtensions
    ensures |ext| >= 3 && ext[0] == '.' && '.' in ext && '/' !in ext && '.' !in ext[1..]
  {
  }

  /** A name whose only dot is its first character (a hidden file such as
      `.md`) has no suffix, so nothing is stripped. */
  lemma HiddenFileKeepsName(cc: CharClasses, dir: string, name: string)
    requires name != [] && name[0] == '.' && '.' !in name[1..] && '/' !in name
    ensures StripDocExtension(cc, dir + "/" + name) == ForwardSlashes(dir + "/" + name)
  {
    var path := dir + "/" + name;
    LastIndexOfConcat(dir + "/", name, '/');
    assert Name(path) == name;
  }
}

=== FILE: heading.dfy ===
/**
 The AsciiDoc heading recogniser of src/mcp_server/asciidoc_parser.py:
 `SECTION_PATTERN = ^(={1,6})\s+(.+?)(?:\s+=*)?$` applied with `re.match`,
 followed by `title = group(2).strip()` and `level = len(group(1)) - 1`.

 The regular expression is decided directly, following Python's backtracking
 order: `={1,6}` and `\s+` are greedy, `.+?` is lazy and does not cross a
 line feed, and `$` matches at the end of the line or just before a final
 line feed.
 */
module Heading {
  import opened Wrappers
  import opened Chars

  /** A recognised heading: `level` is the number of `=` minus one. */
  datatype HeadingMatch = HeadingMatch(level: nat, title: string)

  predicate IsEquals(c: char) {
    c == '='
  }

  /** `=*$` matches all of `r`: equals signs, then the end of the line or
      a final line feed. */
  predicate EqualsTail(r: string) {
    || r == []
    || r == "\n"
    || (r[0] == '=' && EqualsTail(r[1..]))
  }

  /** `\s*=*$` matches all of `r`. */
  predicate SpaceTail(cc: CharClasses, r: string) {
    || EqualsTail(r)
    || (r != [] && cc.isSpace(r[0]) && SpaceTail(cc, r[1..]))
  }

  /** `(?:\s+=*)?$` matches all of `r`. */
  predicate ClosingTail(cc: CharClasses, r: string) {
    || r == []
    || r == "\n"
    || (r != [] && cc.isSpace(r[0]) && SpaceTail(cc, r[1..]))
  }

  /** The lazy group `(.+?)` over `x`, which starts right after the
      whitespace run: the shortest length, at least `j`, whose prefix holds
      no line feed and after which the closing tail matches. */
  function LazyTitleEnd(cc: CharClasses, x: string, j: nat): (r: Option<nat>)
    requires 1 <= j <= |x|
    requires forall i :: 0 <= i < j - 1 ==> x[i] != '\n'
    ensures r.Some? ==> j <= r.value <= |x| && ClosingTail(cc, x[r.value..])
    ensures r.Some? ==> forall i :: 0 <= i < r.value ==> x[i] != '\n'
    decreases |x| - j
  {
    if x[j - 1] == '\n' then None
    else if ClosingTail(cc, x[j..]) then Some(j)
    else LazyTitleEnd(cc, x, j + 1)
  }

  /** The lazy group takes the shortest title it can: no shorter end, from
      `j` on, lets the closing tail match. */
  lemma {:induction false} LazyTitleEndIsShortest(cc: CharClasses, x: string, j: nat)
    requires 1 <= j <= |x|
    requires forall i :: 0 <= i < j - 1 ==> x[i] != '\n'
    ensures var r := LazyTitleEnd(cc, x, j);
      r.Some? ==> forall i :: j <= i < r.value ==> !ClosingTail(cc, x[i..])
    decreases |x| - j
  {
    if x[j - 1] != '\n' && !ClosingTail(cc, x[j..]) {
      LazyTitleEndIsShortest(cc, x, j + 1);
      assert LazyTitleEnd(cc, x, j) == LazyTitleEnd(cc, x, j + 1);
    }
  }

  /** On a rest of the line without line feeds the lazy group always finds
      an end: at worst the end of the line, where the closing tail is empty. */
  lemma {:induction false} LazyTitleEndFound(cc: CharClasses, x: string, j: nat)
    requires 1 <= j <= |x|
    requires forall i :: 0 <= i < |x| ==> x[i] != '\n'
    ensures LazyTitleEnd(cc, x, j).Some?
    decreases |x| - j
  {
    if j < |x| && !ClosingTail(cc, x[j..]) {
      LazyTitleEndFound(cc, x, j + 1);
    }
  }

  /** The largest position in `1..n` of `rest` that is not a line feed. */
  function LastNonLineFeed(rest: string, n: nat): (r: Option<nat>)
    requires n < |rest|
    ensures r.Some? ==> 1 <= r.value <= n && rest[r.value] != '\n'
    ensures r.Some? ==> forall i :: r.value < i <= n ==> rest[i] == '\n'
    ensures r.None? ==> forall i :: 1 <= i <= n ==> rest[i] == '\n'
  {
    if n == 0 then None
    else if rest[n] != '\n' then Some(n)
    else LastNonLineFeed(rest, n - 1)
  }

  /** What `\s+(.+?)(?:\s+=*)?$` captures as its group, applied to the part
      of the line after the `=` run. */
  function TitleGroup(cc: CharClasses, rest: string): (g: Option<string>)
    ensures g.Some? ==> rest != [] && cc.isSpace(rest[0])
    ensures g.Some? ==> g.value != [] && '\n' !in g.value
    ensures g.Some? ==> |rest| >= 2
  {
    var m := CountLeading(rest, cc.isSpace);
    if m == 0 then None
    else if m < |rest| then
      // `\s+` takes the whole run; the group starts at the first
      // non-whitespace character
      var x := rest[m..];
      match LazyTitleEnd(cc, x, 1)
      case Some(j) => Some(x[..j])
      case None => None
    else
      // nothing but whitespace follows the `=` run: `\s+` gives back
      // characters until the group can take one that is not a line feed
      match LastNonLineFeed(rest, m - 1)
      case Some(n) => Some([rest[n]])
      case None => None
  }

  /** `SECTION_PATTERN.match(line)` together with the level and the stripped
      title the parser takes from it. */
  function MatchHeading(cc: CharClasses, line: string): (r: Option<HeadingMatch>)
    ensures r.Some? ==> 1 <= CountLeading(line, IsEquals) <= 6
    ensures r.Some? ==> r.value.level == CountLeading(line, IsEquals) - 1 && r.value.level <= 5
    ensures r.Some? ==> var k := CountLeading(line, IsEquals); k < |line| && cc.isSpace(line[k])
    ensures r.Some? ==> '\n' !in r.value.title
    ensures r.Some? ==> r.value.title == [] || (!cc.isSpace(r.value.title[0]) && !cc.isSpace(r.value.title[|r.value.title| - 1]))
    ensures r.Some? ==> |line| >= CountLeading(line, IsEquals) + 2
    ensures (line == [] || line[0] != '=') ==> r.None?
  {
    var k := CountLeading(line, IsEquals);
    if k < 1 || k > 6 then None
    else
      match TitleGroup(cc, line[k..])
      case Some(g) => Some(HeadingMatch(k - 1, Strip(g, cc.isSpace)))
      case None => None
  }

  /** `n` equals signs. */
  function Equals(n: nat): (r: string)
    ensures |r| == n && forall i :: 0 <= i < n ==> r[i] == '='
  {
    seq(n, _ => '=')
  }

  /** The heading line an AsciiDoc writer produces for a section of `level`,
      optionally closed by a run of `close` equals signs. */
  function RenderHeading(level: nat, title: string, close: nat): (line: string)
    ensures |line| == level + 2 + |title| + (if close == 0 then 0 else close + 1)
  {
    Equals(level + 1) + " " + title + Decoration(close)
  }

  /** A title the recogniser is sure to give back unchanged: no line feed, no
      whitespace at either end, and it does not end in `=`. */
  predicate PlainTitle(cc: CharClasses, title: string) {
    && title != []
    && '\n' !in title
    && !cc.isSpace(title[0])
    && !cc.isSpace(title[|title| - 1])
    && title[|title| - 1] != '='
  }

  /** A tail with a character that is neither whitespace nor `=` cannot be
      matched by `(?:\s+=*)?$`. */
  lemma {:induction false} NotSpaceTail(cc: CharClasses, r: string, t: nat)
    requires cc.Valid()
    requires t < |r| && !cc.isSpace(r[t]) && r[t] != '='
    ensures !SpaceTail(cc, r) && !EqualsTail(r)
    decreases t
  {
    if t > 0 {
      NotSpaceTail(cc, r[1..], t - 1);
    }
  }

  lemma NotClosingTail(cc: CharClasses, r: string, t: nat)
    requires cc.Valid()
    requires t < |r| && !cc.isSpace(r[t]) && r[t] != '='
    ensures !ClosingTail(cc, r)
  {
    if t > 0 {
      NotSpaceTail(cc, r[1..], t - 1);
    }
  }

  lemma CountEquals(level: nat, rest: string)
    requires rest != [] && rest[0] != '='
    ensures CountLeading(Equals(level + 1) + rest, IsEquals) == level + 1
    ensures (Equals(level + 1) + rest)[level + 1..] == rest
  {
    var line := Equals(level + 1) + rest;
    assert line[level + 1] == rest[0];
    assert line[level + 1..] == rest;
  }

  /** The closing decoration of a rendered heading. */
  function Decoration(close: nat): (d: string)
    ensures '\n' !in d
  {
    if close == 0 then "" else " " + Equals(close)
  }

  lemma {:induction false} EqualsCloses(n: nat)
    ensures EqualsTail(Equals(n))
  {
    if n > 0 {
      assert Equals(n)[1..] == Equals(n - 1);
      EqualsCloses(n - 1);
    }
  }

  lemma DecorationCloses(cc: CharClasses, close: nat)
    requires cc.Valid()
    ensures ClosingTail(cc, Decoration(close))
  {
    if close != 0 {
      EqualsCloses(close);
      assert Decoration(close)[1..] == Equals(close);
    }
  }

  /** The lazy group stops exactly at the end of a plain title. */
  lemma LazyStopsAtTitle(cc: CharClasses, title: string, deco: string)
    requires cc.Valid() && PlainTitle(cc, title)
    requires '\n' !in deco && ClosingTail(cc, deco)
    ensures LazyTitleEnd(cc, title + deco, 1) == Some(|title|)
  {
    var x := title + deco;
    assert forall i :: 0 <= i < |x| ==> x[i] in title || x[i] in deco;
    assert x[|title|..] == deco;
    LazyTitleEndFound(cc, x, 1);
    LazyTitleEndIsShortest(cc, x, 1);
    var j := LazyTitleEnd(cc, x, 1);
    if j.value < |title| {
      assert x[j.value..][|title| - 1 - j.value] == title[|title| - 1];
      NotClosingTail(cc, x[j.value..], |title| - 1 - j.value);
    }
  }

  /** A run of class members in front of a character outside the class is
      exactly what `CountLeading` counts. */
  lemma {:induction false} LeadingRun(w: string, t: string, p: char -> bool)
    requires forall i :: 0 <= i < |w| ==> p(w[i])
    requires t != [] && !p(t[0])
    ensures CountLeading(w + t, p) == |w|
  {
    if w != [] {
      assert (w + t)[1..] == w[1..] + t;
      LeadingRun(w[1..], t, p);
    }
  }

  /** The title group after any whitespace run is the plain title, whatever
      closing tail follows it. */
  lemma GroupAnySpacing(cc: CharClasses, w: string, title: string, deco: string)
    requires cc.Valid() && PlainTitle(cc, title)
    requires w != [] && forall i :: 0 <= i < |w| ==> cc.isSpace(w[i])
    requires '\n' !in deco && ClosingTail(cc, deco)
    ensures TitleGroup(cc, w + title + deco) == Some(title)
  {
    var rest := w + title + deco;
    assert rest == w + (title + deco);
    LeadingRun(w, title + deco, cc.isSpace);
    assert rest[|w|..] == title + deco;
    LazyStopsAtTitle(cc, title, deco);
    assert (title + deco)[..|title|] == title;
  }

  /** The recogniser reads back the level and the title of any heading line
      built from `level + 1` equals signs, a non-empty whitespace run, a
      plain title and a closing tail: trailing blanks, a run of `=` after
      whitespace, a final line feed, or nothing. */
  lemma MatchSpaced(cc: CharClasses, level: nat, w: string, title: string, deco: string)
    requires cc.Valid() && level <= 5 && PlainTitle(cc, title)
    requires w != [] && forall i :: 0 <= i < |w| ==> cc.isSpace(w[i])
    requires '\n' !in deco && ClosingTail(cc, deco)
    ensures MatchHeading(cc, Equals(level + 1) + w + title + deco) == Some(HeadingMatch(level, title))
  {
    var rest := w + title + deco;
    assert Equals(level + 1) + w + title + deco == Equals(level + 1) + rest;
    assert rest[0] == w[0];
    GroupAnySpacing(cc, w, title, deco);
    MatchFromGroup(cc, level, rest, title);
  }

  /** After `level + 1` equals signs, a rest whose title group is a plain
      title gives that level and title. */
  lemma MatchFromGroup(cc: CharClasses, level: nat, rest: string, title: string)
    requires level <= 5 && rest != [] && rest[0] != '='
    requires TitleGroup(cc, rest) == Some(title) && PlainTitle(cc, title)
    ensures MatchHeading(cc, Equals(level + 1) + rest) == Some(HeadingMatch(level, title))
  {
    CountEquals(level, rest);
    assert Strip(title, cc.isSpace) == title;
  }

  /** Round trip: the recogniser reads back the level and the title of a
      rendered heading, with or without a closing run of equals signs. */
  lemma MatchRendered(cc: CharClasses, level: nat, title: string, close: nat)
    requires cc.Valid() && level <= 5 && PlainTitle(cc, title)
    ensures MatchHeading(cc, RenderHeading(level, title, close)) == Some(HeadingMatch(level, title))
  {
    DecorationCloses(cc, close);
    MatchSpaced(cc, level, " ", title, Decoration(close));
  }

  /** For a line without a line feed (the parser's input lines) the
      recogniser accepts exactly the lines that open with one to six `=`,
      then whitespace, then at least one more character. */
  lemma HeadingLineShape(cc: CharClasses, line: string)
    requires cc.Valid() && '\n' !in line
    ensures MatchHeading(cc, line).Some? <==>
      var k := CountLeading(line, IsEquals);
      1 <= k <= 6 && k + 2 <= |line| && cc.isSpace(line[k])
  {
    var k := CountLeading(line, IsEquals);
    if 1 <= k <= 6 && k + 2 <= |line| && cc.isSpace(line[k]) {
      var rest := line[k..];
      var m := CountLeading(rest, cc.isSpace);
      assert rest[0] == line[k];
      if m < |rest| {
        var x := rest[m..];
        assert forall i :: 0 <= i < |x| ==> x[i] == line[k + m + i];
        LazyTitleEndFound(cc, x, 1);
      } else {
        assert rest[m - 1] == line[k + m - 1];
      }
    }
  }
}

=== FILE: runs.dfy ===
/**
 Reference definitions for the slug functions, stated without `re.sub`: the
 words of a text (its maximal runs of letters) joined by single dashes, and a
 text with each run of a character class collapsed to one character.
 */
module Runs {
  import opened Chars

  /** `s` starts with a character of the class `L`. */
  predicate StartsIn(s: string, L: char -> bool) {
    s != [] && L(s[0])
  }

  /** The maximal non-empty runs of characters of the class `L`, in order.
      A character of `L` joins the first word of the rest when the next
      character is in `L` too, and starts a word of its own otherwise. */
  function Words(s: string, L: char -> bool): (w: seq<string>)
    ensures StartsIn(s, L) ==> w != [] && w[0] != [] && w[0][0] == s[0]
    ensures forall k :: 0 <= k < |w| ==> w[k] != []
    ensures forall k, j :: 0 <= k < |w| && 0 <= j < |w[k]| ==> L(w[k][j])
    decreases |s|
  {
    if s == [] then []
    else
      var w := Words(s[1..], L);
      if !L(s[0]) then w
      else if StartsIn(s[1..], L) then [[s[0]] + w[0]] + w[1..]
      else [[s[0]]] + w
  }

  /** The words separated by single dashes: `"-".join(words)`. */
  function JoinDash(ws: seq<string>): (r: string)
    ensures ws == [] ==> r == []
  {
    if ws == [] then []
    else if |ws| == 1 then ws[0]
    else ws[0] + "-" + JoinDash(ws[1..])
  }

  /** The words of `[c] + t` in terms of the words of `t`. */
  lemma WordsCons(c: char, t: string, L: char -> bool)
    ensures Words([c] + t, L) ==
      if !L(c) then Words(t, L)
      else if StartsIn(t, L) then [[c] + Words(t, L)[0]] + Words(t, L)[1..]
      else [[c]] + Words(t, L)
  {
    assert ([c] + t)[1..] == t;
  }

  /** Leading characters outside `L` start no word. */
  lemma {:induction false} WordsSkip(s: string, k: nat, L: char -> bool)
    requires k <= |s|
    requires forall i :: 0 <= i < k ==> !L(s[i])
    ensures Words(s, L) == Words(s[k..], L)
  {
    if k > 0 {
      WordsSkip(s[1..], k - 1, L);
      assert s[1..][k - 1..] == s[k..];
    }
  }

  /** Two texts that do not meet inside a word have the words of each, in
      order. */
  lemma {:induction false} WordsConcat(a: string, b: string, L: char -> bool)
    requires !StartsIn(b, L)
    ensures Words(a + b, L) == Words(a, L) + Words(b, L)
  {
    if a == [] {
      assert a + b == b;
    } else {
      var a' := a[1..];
      assert a + b == [a[0]] + (a' + b);
      assert a == [a[0]] + a';
      WordsConcat(a', b, L);
      assert StartsIn(a' + b, L) == StartsIn(a', L);
      WordsCons(a[0], a' + b, L);
      WordsCons(a[0], a', L);
    }
  }

  /** A text of letters only is one word. */
  lemma {:induction false} WordsAllIn(s: string, L: char -> bool)
    requires s != []
    requires forall i :: 0 <= i < |s| ==> L(s[i])
    ensures Words(s, L) == [s]
  {
    var t := s[1..];
    assert s == [s[0]] + t;
    WordsCons(s[0], t, L);
    if t != [] {
      WordsAllIn(t, L);
      assert StartsIn(t, L) by {
        assert t[0] == s[1];
      }
      assert [[s[0]] + [t][0]] + [t][1..] == [s];
    } else {
      assert Words(t, L) == [];
      assert s == [s[0]];
    }
  }

  /** Replacing runs of a class outside `L` by `-`, itself outside `L`,
      keeps the words and whether the text starts with one. */
  lemma {:induction false} WordsReplaceRuns(s: string, p: char -> bool, L: char -> bool)
    requires forall c :: p(c) ==> !L(c)
    requires !L('-')
    ensures Words(ReplaceRuns(s, p), L) == Words(s, L)
    ensures StartsIn(ReplaceRuns(s, p), L) == StartsIn(s, L)
    decreases |s|
  {
    if s == [] {
    } else if p(s[0]) {
      var n := CountLeading(s, p);
      WordsReplaceRuns(s[n..], p, L);
      WordsCons('-', ReplaceRuns(s[n..], p), L);
      WordsSkip(s, n, L);
    } else {
      WordsReplaceRuns(s[1..], p, L);
      WordsCons(s[0], ReplaceRuns(s[1..], p), L);
      WordsCons(s[0], s[1..], L);
      assert s == [s[0]] + s[1..];
    }
  }

  /** Stripping `-` from both ends keeps the words. */
  lemma WordsStrip(s: string, L: char -> bool)
    requires !L('-')
    ensures Words(Strip(s, IsDash), L) == Words(s, L)
  {
    var t := TrimStart(s, IsDash);
    var k := |s| - |t|;
    WordsSkip(s, k, L);
    var r := TrimEnd(t, IsDash);
    var tail := t[|r|..];
    assert t == r + tail;
    WordsConcat(r, tail, L);
    WordsSkip(tail, |tail|, L);
  }

  /** A word, a dash and a text starting with a word: the first word comes
      first, then the words of the rest. */
  lemma WordsAfterFirst(a: string, rest: string, L: char -> bool)
    requires a != [] && forall i :: 0 <= i < |a| ==> L(a[i])
    requires !L('-')
    ensures Words(a + ("-" + rest), L) == [a] + Words(rest, L)
  {
    WordsConcat(a, "-" + rest, L);
    WordsAllIn(a, L);
    WordsCons('-', rest, L);
  }

  lemma JoinDashCons(a: string, ws: seq<string>)
    requires ws != []
    ensures JoinDash([a] + ws) == a + ("-" + JoinDash(ws))
  {
    assert ([a] + ws)[1..] == ws;
    assert a + "-" + JoinDash(ws) == a + ("-" + JoinDash(ws));
  }

  /** Splitting at the first dash after a word. */
  lemma JoinDashWordsStep(a: string, rest: string, L: char -> bool)
    requires a != [] && forall i :: 0 <= i < |a| ==> L(a[i])
    requires !L('-') && StartsIn(rest, L)
    ensures JoinDash(Words(a + ("-" + rest), L)) == a + ("-" + JoinDash(Words(rest, L)))
  {
    WordsAfterFirst(a, rest, L);
    JoinDashCons(a, Words(rest, L));
  }

  /** A text of letters and lone inner dashes is its own words joined by
      dashes. */
  lemma {:induction false} JoinDashWords(r: string, L: char -> bool)
    requires !L('-')
    requires forall i :: 0 <= i < |r| ==> L(r[i]) || r[i] == '-'
    requires NoAdjacent(r, IsDash)
    requires r == [] || (r[0] != '-' && r[|r| - 1] != '-')
    ensures r == JoinDash(Words(r, L))
    decreases |r|, 1
  {
    if r != [] {
      if CountLeading(r, L) == |r| {
        WordsAllIn(r, L);
        assert JoinDash([r]) == r;
      } else {
        JoinDashWordsAfterDash(r, L);
      }
    }
  }

  /** The case of `JoinDashWords` where a dash follows the first word. */
  lemma {:induction false} JoinDashWordsAfterDash(r: string, L: char -> bool)
    requires !L('-')
    requires forall i :: 0 <= i < |r| ==> L(r[i]) || r[i] == '-'
    requires NoAdjacent(r, IsDash)
    requires r != [] && r[0] != '-' && r[|r| - 1] != '-'
    requires CountLeading(r, L) < |r|
    ensures r == JoinDash(Words(r, L))
    decreases |r|, 0
  {
    var m := CountLeading(r, L);
    assert r[m] == '-' && 0 < m && m + 1 < |r|;
    var rest := r[m + 1..];
    DashTextSuffix(r, m + 1, L);
    JoinDashWords(rest, L);
    SplitAtDash(r, m);
    JoinDashWordsStep(r[..m], rest, L);
  }

  lemma DashTextSuffix(r: string, k: nat, L: char -> bool)
    requires 0 < k < |r|
    requires forall i :: 0 <= i < |r| ==> L(r[i]) || r[i] == '-'
    requires NoAdjacent(r, IsDash) && r[k - 1] == '-' && r[|r| - 1] != '-'
    ensures forall i :: 0 <= i < |r[k..]| ==> L(r[k..][i]) || r[k..][i] == '-'
    ensures NoAdjacent(r[k..], IsDash)
    ensures r[k..][0] != '-' && r[k..][|r[k..]| - 1] != '-'
    ensures StartsIn(r[k..], L)
  {
    NoAdjacentSlice(r, k, |r|, IsDash);
    assert r[k..][0] == r[k];
  }

  lemma SplitAtDash(r: string, m: nat)
    requires m < |r| && r[m] == '-'
    ensures r == r[..m] + ("-" + r[m + 1..])
  {
    assert r[m..] == "-" + r[m + 1..];
    assert r == r[..m] + r[m..];
  }

  /** `s` with each maximal run of the class `p` shortened to one character. */
  function CollapseRuns(s: string, p: char -> bool): (r: string)
    ensures |r| <= |s|
  {
    if |s| <= 1 then s
    else if p(s[0]) && p(s[1]) then CollapseRuns(s[1..], p)
    else [s[0]] + CollapseRuns(s[1..], p)
  }

  lemma DashForConcat(a: string, b: string, p: char -> bool)
    ensures DashFor(a + b, p) == DashFor(a, p) + DashFor(b, p)
  {
    assert forall i :: 0 <= i < |a + b| ==> DashFor(a + b, p)[i] == (DashFor(a, p) + DashFor(b, p))[i];
  }

  /** A run of `p` at the start collapses to its last character. */
  lemma {:induction false} CollapseRunStart(s: string, p: char -> bool, k: nat)
    requires k < CountLeading(s, p)
    ensures CollapseRuns(s[k..], p) == [s[CountLeading(s, p) - 1]] + CollapseRuns(s[CountLeading(s, p)..], p)
    decreases CountLeading(s, p) - k
  {
    var n := CountLeading(s, p);
    assert s[k..][1..] == s[k + 1..];
    if k + 1 < n {
      CollapseRunStart(s, p, k + 1);
    }
  }

  /** `re.sub(pattern + "+", "-", s)` replaces each run of the class by one
      `-`: it is the collapsed text with the class members turned into `-`. */
  lemma {:induction false} ReplaceRunsCollapse(s: string, p: char -> bool)
    ensures ReplaceRuns(s, p) == DashFor(CollapseRuns(s, p), p)
    decreases |s|
  {
    if s == [] {
    } else if p(s[0]) {
      var n := CountLeading(s, p);
      ReplaceRunsCollapse(s[n..], p);
      CollapseRunStart(s, p, 0);
      DashForConcat([s[n - 1]], CollapseRuns(s[n..], p), p);
    } else {
      ReplaceRunsCollapse(s[1..], p);
      DashForConcat([s[0]], CollapseRuns(s[1..], p), p);
    }
  }
}

=== FILE: sections.dfy ===
/**
 The section tree shared by the parsers, and the two tree walks of
 src/dacli/parser_utils.py: `collect_all_sections` (pre-order flattening) and
 `find_section_by_path` (depth-first lookup).
 */
module Sections {
  import opened Wrappers

  /** Where a section starts. `resolvedFrom` points back at the include
      directive a location was pulled in by. */
  datatype SourceLocation = SourceLocation(
    file: string,
    line: int,
    endLine: Option<int>,
    resolvedFrom: Option<SourceLocation>)

  /** A heading-delimited part of a document. `level` 0 is the document
      title; `children` keep their order in the file. */
  datatype Section = Section(
    title: string,
    level: int,
    path: string,
    sourceLocation: SourceLocation,
    children: seq<Section>,
    anchor: Option<string>)

  /** Number of sections in a forest, counting every descendant. */
  function Size(forest: seq<Section>): nat
  {
    if forest == [] then 0
    else 1 + Size(forest[0].children) + Size(forest[1..])
  }

  /** The pre-order of a forest: each section, then its subtree, then its
      later siblings. */
  function PreOrder(forest: seq<Section>): (r: seq<Section>)
    ensures |r| == Size(forest)
  {
    if forest == [] then []
    else [forest[0]] + PreOrder(forest[0].children) + PreOrder(forest[1..])
  }

  lemma {:induction false} PreOrderConcat(a: seq<Section>, b: seq<Section>)
    ensures PreOrder(a + b) == PreOrder(a) + PreOrder(b)
    decreases |a|
  {
    if a == [] {
      assert a + b == b;
    } else {
      assert (a + b)[0] == a[0];
      assert (a + b)[1..] == a[1..] + b;
      PreOrderConcat(a[1..], b);
    }
  }

  /** In the pre-order, the `n` entries after position `k` are the pre-order
      of the children of the section at `k`. */
  ghost predicate SubtreeFollowsAt(p: seq<Section>, k: nat)
    requires k < |p|
  {
    var n := Size(p[k].children);
    k + 1 + n <= |p| && p[k + 1..k + 1 + n] == PreOrder(p[k].children)
  }

  /** Parents come before their children: right after any section in the
      pre-order comes exactly the pre-order of its own subtree. */
  lemma {:induction false} PreOrderSubtreeFollows(forest: seq<Section>, k: nat)
    requires k < Size(forest)
    ensures SubtreeFollowsAt(PreOrder(forest), k)
    decreases forest
  {
    var p := PreOrder(forest);
    var a := PreOrder(forest[0].children);
    var b := PreOrder(forest[1..]);
    assert p == [forest[0]] + a + b;
    if k == 0 {
      assert p[1..1 + |a|] == a;
    } else if k < 1 + |a| {
      PreOrderSubtreeFollows(forest[0].children, k - 1);
      FollowsInMiddle(p, forest[0], a, b, k);
    } else {
      PreOrderSubtreeFollows(forest[1..], k - 1 - |a|);
      FollowsInRight(p, forest[0], a, b, k);
    }
  }

  lemma FollowsInMiddle(p: seq<Section>, h: Section, a: seq<Section>, b: seq<Section>, k: nat)
    requires p == [h] + a + b
    requires 1 <= k <= |a|
    requires SubtreeFollowsAt(a, k - 1)
    ensures SubtreeFollowsAt(p, k)
  {
    var n := Size(a[k - 1].children);
    assert p[k] == a[k - 1];
    assert p[k + 1..k + 1 + n] == a[k..k + n];
  }

  lemma FollowsInRight(p: seq<Section>, h: Section, a: seq<Section>, b: seq<Section>, k: nat)
    requires p == [h] + a + b
    requires 1 + |a| <= k < |p|
    requires SubtreeFollowsAt(b, k - 1 - |a|)
    ensures SubtreeFollowsAt(p, k)
  {
    var j := k - 1 - |a|;
    var n := Size(b[j].children);
    assert p[k] == b[j];
    assert p[k + 1..k + 1 + n] == b[j + 1..j + 1 + n];
  }

  /** The pre-order of one more top-level section adds that section and its
      subtree. */
  lemma PreOrderExtend(sections: seq<Section>, i: nat)
    requires i < |sections|
    ensures PreOrder(sections[..i + 1])
            == PreOrder(sections[..i]) + [sections[i]] + PreOrder(sections[i].children)
  {
    var section := sections[i];
    PreOrderConcat(sections[..i], [section]);
    assert sections[..i + 1] == sections[..i] + [section];
    assert PreOrder([section]) == [section] + PreOrder(section.children) by {
      assert [section][1..] == [];
    }
  }

  /** `collect_all_sections(sections, result)`: the loop appends each section
      and recurses into its children. The list passed in stays as a prefix,
      and what is appended is the pre-order of the forest, one entry per
      section. */
  method CollectAllSections(sections: seq<Section>, result: seq<Section>) returns (out: seq<Section>)
    ensures out == result + PreOrder(sections)
    ensures |out| == |result| + Size(sections)
    ensures out[..|result|] == result
    decreases sections
  {
    out := result;
    var i := 0;
    while i < |sections|
      invariant 0 <= i <= |sections|
      invariant out == result + PreOrder(sections[..i])
    {
      var section := sections[i];
      out := out + [section];
      out := CollectAllSections(section.children, out);
      PreOrderExtend(sections, i);
      i := i + 1;
    }
    assert sections[..i] == sections;
  }

  /** `find_section_by_path(sections, path)`: the first section met in a
      depth-first walk whose path equals `path`. */
  function FindSectionByPath(sections: seq<Section>, path: string): (r: Option<Section>)
    ensures r.Some? ==> r.value.path == path && r.value in PreOrder(sections)
    ensures r.None? <==> forall s :: s in PreOrder(sections) ==> s.path != path
  {
    if sections == [] then None
    else if sections[0].path == path then Some(sections[0])
    else match FindSectionByPath(sections[0].children, path)
      case Some(found) => Some(found)
      case None => FindSectionByPath(sections[1..], path)
  }

  /** The first element of a list carrying the given path, scanning left to
      right. */
  function FirstWithPath(xs: seq<Section>, path: string): Option<Section>
  {
    if xs == [] then None
    else if xs[0].path == path then Some(xs[0])
    else FirstWithPath(xs[1..], path)
  }

  lemma {:induction false} FirstWithPathConcat(a: seq<Section>, b: seq<Section>, path: string)
    ensures FirstWithPath(a + b, path) ==
            if FirstWithPath(a, path).Some? then FirstWithPath(a, path) else FirstWithPath(b, path)
    decreases |a|
  {
    if a == [] {
      assert a + b == b;
    } else {
      assert (a + b)[0] == a[0];
      assert (a + b)[1..] == a[1..] + b;
      FirstWithPathConcat(a[1..], b, path);
    }
  }

  /** When several sections share a path, the lookup returns the one that
      comes first in pre-order. */
  lemma {:induction false} FindSectionByPathIsFirstInPreOrder(sections: seq<Section>, path: string)
    ensures FindSectionByPath(sections, path) == FirstWithPath(PreOrder(sections), path)
    decreases sections
  {
    if sections != [] {
      var s := sections[0];
      var p := PreOrder(sections);
      assert p == [s] + (PreOrder(s.children) + PreOrder(sections[1..]));
      if s.path != path {
        FindSectionByPathIsFirstInPreOrder(s.children, path);
        FindSectionByPathIsFirstInPreOrder(sections[1..], path);
        FirstWithPathConcat(PreOrder(s.children), PreOrder(sections[1..]), path);
        assert p[1..] == PreOrder(s.children) + PreOrder(sections[1..]);
      }
    }
  }
}

=== FILE: slug.dfy ===
/**
 The two title-to-slug conversions of the indexer: `slugify` (the shared
 parser utility) and `_title_to_slug` (the older one the AsciiDoc section
 builder uses). Both are total string functions.
 */
module Slug {
  import opened Chars
  import opened Runs

  /** Characters that survive `re.sub(r"[^\w\s-]", "", s)`. */
  predicate Kept(cc: CharClasses, c: char) {
    cc.isWord(c) || cc.isSpace(c) || c == '-'
  }

  /** The class `[\s_]`. */
  function Separator(cc: CharClasses): char -> bool {
    c => cc.isSpace(c) || c == '_'
  }

  function KeptClass(cc: CharClasses): char -> bool {
    c => Kept(cc, c)
  }

  /** `re.sub(r"[^\w\s-]", "", s)`: the subsequence of kept characters. */
  function RemoveSpecial(cc: CharClasses, s: string): (r: string)
    ensures |r| <= |s|
    ensures forall i :: 0 <= i < |r| ==> Kept(cc, r[i]) && r[i] in s
    ensures forall c :: c in s && Kept(cc, c) ==> c in r
    ensures (forall i :: 0 <= i < |s| ==> Kept(cc, s[i])) ==> r == s
  {
    Filter(s, KeptClass(cc))
  }

  /** The removal works character by character: a text is handled piece by
      piece, and one character is kept exactly when it is a word character,
      whitespace or `-`. Together these fix the result, order and repeats
      included. */
  lemma RemoveSpecialConcat(cc: CharClasses, x: string, y: string)
    ensures RemoveSpecial(cc, x + y) == RemoveSpecial(cc, x) + RemoveSpecial(cc, y)
  {
    FilterConcat(x, y, KeptClass(cc));
  }

  lemma RemoveSpecialOne(cc: CharClasses, c: char)
    ensures RemoveSpecial(cc, [c]) == if Kept(cc, c) then [c] else []
  {
    assert [c][1..] == [];
  }

  predicate NotDash(c: char) {
    c != '-'
  }

  /** The characters a slug carries over from its text: word characters
      other than `_`, and neither whitespace nor `-`. */
  function SlugLetter(cc: CharClasses): char -> bool {
    c => cc.isWord(c) && !cc.isSpace(c) && c != '_' && c != '-'
  }

  /** The characters `_title_to_slug` carries over: `_` among them. */
  function TitleLetter(cc: CharClasses): char -> bool {
    c => cc.isWord(c) && !cc.isSpace(c) && c != '-'
  }

  /** What a `slugify` result looks like: only word characters other than
      `_` and `-`, no whitespace, no `--`, and no `-` at either end. */
  predicate IsSlug(cc: CharClasses, s: string) {
    && (forall i :: 0 <= i < |s| ==> SlugChar(cc, s[i]))
    && NoAdjacent(s, IsDash)
    && (s == [] || (s[0] != '-' && s[|s| - 1] != '-'))
  }

  predicate NoWhitespace(cc: CharClasses, s: string) {
    forall i :: 0 <= i < |s| ==> !cc.isSpace(s[i])
  }

  /** A character `slugify` may emit. */
  predicate SlugChar(cc: CharClasses, c: char) {
    c == '-' || (cc.isWord(c) && !cc.isSpace(c) && c != '_')
  }

  function IsLowerChar(cc: CharClasses): char -> bool {
    c => cc.lower(c) == c
  }

  /** `slugify(text)` from src/dacli/parser_utils.py: lower, drop special
      characters, turn `[\s_]+` into `-`, collapse `-+`, strip `-`. */
  function Slugify(cc: CharClasses, text: string): (r: string)
    ensures IsSlug(cc, r)
    ensures cc.Valid() ==> IsLowercase(cc, r) && NoWhitespace(cc, r)
    ensures |r| <= |text|
  {
    var s1 := RemoveSpecial(cc, Lower(cc, text));
    var s2 := ReplaceRuns(s1, Separator(cc));
    var s3 := ReplaceRuns(s2, IsDash);
    var r := Strip(s3, IsDash);
    SlugifyShape(cc, text, s1, s2, s3, r);
    SlugifyLowercase(cc, text, s1, s2, s3, r);
    r
  }

  lemma SlugifyShape(cc: CharClasses, text: string, s1: string, s2: string, s3: string, r: string)
    requires s1 == RemoveSpecial(cc, Lower(cc, text))
    requires s2 == ReplaceRuns(s1, Separator(cc))
    requires s3 == ReplaceRuns(s2, IsDash)
    requires r == Strip(s3, IsDash)
    ensures IsSlug(cc, r)
  {
    var P := c => SlugChar(cc, c);
    assert forall i :: 0 <= i < |s2| ==> P(s2[i]) by {
      forall i | 0 <= i < |s2|
        ensures P(s2[i])
      {
        if s2[i] != '-' {
          var j :| 0 <= j < |s1| && s1[j] == s2[i];
          assert Kept(cc, s1[j]);
        }
      }
    }
    CharsFromParts(s2, s3, P);
    CharsFromParts(s3, r, P);
    ReplaceRunsNoAdjacent(s2, IsDash);
    StripNoAdjacent(s3, IsDash);
  }

  lemma SlugifyLowercase(cc: CharClasses, text: string, s1: string, s2: string, s3: string, r: string)
    requires s1 == RemoveSpecial(cc, Lower(cc, text))
    requires s2 == ReplaceRuns(s1, Separator(cc))
    requires s3 == ReplaceRuns(s2, IsDash)
    requires r == Strip(s3, IsDash)
    ensures cc.Valid() ==> IsLowercase(cc, r) && NoWhitespace(cc, r)
  {
    if cc.Valid() {
      var P := IsLowerChar(cc);
      var t := Lower(cc, text);
      assert forall i :: 0 <= i < |t| ==> P(t[i]);
      CharsFromParts(t, s1, P);
      CharsFromParts(s1, s2, P);
      CharsFromParts(s2, s3, P);
      CharsFromParts(s3, r, P);
      SlugifyShape(cc, text, s1, s2, s3, r);
    }
  }

  /** A slug is a fixed point of every stage of `slugify`. */
  lemma SlugStagesFixed(cc: CharClasses, r: string)
    requires cc.Valid()
    requires IsSlug(cc, r) && IsLowercase(cc, r)
    ensures Lower(cc, r) == r
    ensures RemoveSpecial(cc, r) == r
    ensures ReplaceRuns(r, Separator(cc)) == r
    ensures ReplaceRuns(r, IsDash) == r
    ensures Strip(r, IsDash) == r
  {
    assert forall i :: 0 <= i < |r| ==> Lower(cc, r)[i] == r[i];
    assert forall i :: 0 <= i < |r| ==> SlugChar(cc, r[i]);
    assert forall i :: 0 <= i < |r| ==> Kept(cc, r[i]);
    ReplaceRunsIdentity(r, Separator(cc));
    ReplaceRunsIdentity(r, IsDash);
  }

  /** `slugify` is idempotent: `slugify(slugify(x)) == slugify(x)`. */
  lemma SlugifyIdempotent(cc: CharClasses, text: string)
    requires cc.Valid()
    ensures Slugify(cc, Slugify(cc, text)) == Slugify(cc, text)
  {
    SlugStagesFixed(cc, Slugify(cc, text));
  }

  /** The characters of the slug other than `-` are, in order, the lowered
      text's word characters other than `_`: nothing else is kept, and none
      of them (a non-ASCII letter such as `ü` included) is lost. */
  lemma SlugifyKeepsLetters(cc: CharClasses, text: string)
    ensures Filter(Slugify(cc, text), NotDash) == Filter(Lower(cc, text), SlugLetter(cc))
  {
    var s1 := RemoveSpecial(cc, Lower(cc, text));
    var s2 := ReplaceRuns(s1, Separator(cc));
    var s3 := ReplaceRuns(s2, IsDash);
    StripFilter(s3, IsDash, NotDash);
    ReplaceRunsFilter(s2, IsDash, NotDash, NotDash);
    var q := c => !Separator(cc)(c) && c != '-';
    ReplaceRunsFilter(s1, Separator(cc), NotDash, q);
    FilterFilter(Lower(cc, text), KeptClass(cc), q, SlugLetter(cc));
  }

  /** The slug is the words of the text joined by single dashes. The words
      are the maximal runs of word characters other than `_`, taken after
      special characters are dropped. So `"a!b"` gives `"ab"` and
      `"Don't panic"` gives `"dont-panic"`. */
  lemma SlugifyJoinsWords(cc: CharClasses, text: string)
    ensures Slugify(cc, text) == JoinDash(Words(RemoveSpecial(cc, Lower(cc, text)), SlugLetter(cc)))
  {
    var s1 := RemoveSpecial(cc, Lower(cc, text));
    SlugStagesKeepWords(cc, s1);
    SlugIsJoinedWords(cc, Slugify(cc, text));
  }

  /** The last three stages of `slugify` only move dashes and separators:
      the words stay the same. */
  lemma SlugStagesKeepWords(cc: CharClasses, s1: string)
    ensures Words(Strip(ReplaceRuns(ReplaceRuns(s1, Separator(cc)), IsDash), IsDash), SlugLetter(cc))
         == Words(s1, SlugLetter(cc))
  {
    var L := SlugLetter(cc);
    var s2 := ReplaceRuns(s1, Separator(cc));
    WordsReplaceRuns(s1, Separator(cc), L);
    WordsReplaceRuns(s2, IsDash, L);
    WordsStrip(ReplaceRuns(s2, IsDash), L);
  }

  /** A slug is its own words joined by dashes. */
  lemma SlugIsJoinedWords(cc: CharClasses, r: string)
    requires IsSlug(cc, r)
    ensures r == JoinDash(Words(r, SlugLetter(cc)))
  {
    var L := SlugLetter(cc);
    assert forall i :: 0 <= i < |r| ==> L(r[i]) || r[i] == '-' by {
      forall i | 0 <= i < |r|
        ensures L(r[i]) || r[i] == '-'
      {
        assert SlugChar(cc, r[i]);
      }
    }
    JoinDashWords(r, L);
  }

  /** The slug is empty exactly when the lowered text has no word character
      other than `_`; `slugify("") == ""` is one case. */
  lemma SlugifyEmpty(cc: CharClasses, text: string)
    ensures Slugify(cc, text) == "" <==> forall i :: 0 <= i < |text| ==> !SlugLetter(cc)(cc.lower(text[i]))
  {
    var r := Slugify(cc, text);
    var t := Lower(cc, text);
    SlugifyKeepsLetters(cc, text);
    FilterNone(r, NotDash);
    FilterNone(t, SlugLetter(cc));
    assert forall i :: 0 <= i < |text| ==> t[i] == cc.lower(text[i]);
  }

  /** Slug letters with single inner separators, each separator turned
      into `-`, are left alone by the last two stages of `slugify`. */
  lemma DashedWordsFixed(cc: CharClasses, t: string)
    requires forall i :: 0 <= i < |t| ==> SlugLetter(cc)(t[i]) || Separator(cc)(t[i])
    requires NoAdjacent(t, Separator(cc))
    requires t == [] || (!Separator(cc)(t[0]) && !Separator(cc)(t[|t| - 1]))
    ensures ReplaceRuns(DashFor(t, Separator(cc)), IsDash) == DashFor(t, Separator(cc))
    ensures Strip(DashFor(t, Separator(cc)), IsDash) == DashFor(t, Separator(cc))
  {
    var s2 := DashFor(t, Separator(cc));
    assert forall i :: 0 <= i < |s2| ==> (s2[i] == '-' <==> Separator(cc)(t[i]));
    assert NoAdjacent(s2, IsDash);
    ReplaceRunsIdentity(s2, IsDash);
    assert s2 == [] || (s2[0] != '-' && s2[|s2| - 1] != '-');
  }

  /** `slugify` turns each lone space or `_` between words into `-`: on a
      lowered text of slug letters and single separators, neither first nor
      last, the slug is the text with every separator replaced by `-`. */
  lemma SlugifySeparatorsToDashes(cc: CharClasses, text: string)
    requires cc.Valid()
    requires forall i :: 0 <= i < |text| ==> SlugLetter(cc)(cc.lower(text[i])) || Separator(cc)(cc.lower(text[i]))
    requires NoAdjacent(Lower(cc, text), Separator(cc))
    requires text == [] || (!Separator(cc)(cc.lower(text[0])) && !Separator(cc)(cc.lower(text[|text| - 1])))
    ensures Slugify(cc, text) == DashFor(Lower(cc, text), Separator(cc))
  {
    var t := Lower(cc, text);
    assert forall i :: 0 <= i < |t| ==> t[i] == cc.lower(text[i]);
    SeparatedWordsStages(cc, t);
  }

  /** The stages after lowering, applied to slug letters with single inner
      separators: each separator becomes `-` and nothing else changes. */
  lemma SeparatedWordsStages(cc: CharClasses, t: string)
    requires cc.Valid()
    requires forall i :: 0 <= i < |t| ==> SlugLetter(cc)(t[i]) || Separator(cc)(t[i])
    requires NoAdjacent(t, Separator(cc))
    requires t == [] || (!Separator(cc)(t[0]) && !Separator(cc)(t[|t| - 1]))
    ensures Strip(ReplaceRuns(ReplaceRuns(RemoveSpecial(cc, t), Separator(cc)), IsDash), IsDash)
         == DashFor(t, Separator(cc))
  {
    assert forall i :: 0 <= i < |t| ==> Kept(cc, t[i]);
    assert RemoveSpecial(cc, t) == t;
    ReplaceRunsSingles(t, Separator(cc));
    DashedWordsFixed(cc, t);
  }

  /** `_title_to_slug(title)` from src/mcp_server/asciidoc_parser.py: lower,
      drop special characters, turn `\s+` into `-`. Unlike `Slugify` it keeps
      `_`, keeps `--` and does not trim `-`. */
  function TitleToSlug(cc: CharClasses, title: string): (r: string)
    ensures forall i :: 0 <= i < |r| ==> r[i] == '-' || (cc.isWord(r[i]) && !cc.isSpace(r[i]))
    ensures cc.Valid() ==> IsLowercase(cc, r) && NoWhitespace(cc, r) && '.' !in r
    ensures |r| <= |title|
  {
    var s1 := RemoveSpecial(cc, Lower(cc, title));
    var r := ReplaceRuns(s1, cc.isSpace);
    TitleToSlugShape(cc, title, s1, r);
    r
  }

  lemma TitleToSlugShape(cc: CharClasses, title: string, s1: string, r: string)
    requires s1 == RemoveSpecial(cc, Lower(cc, title))
    requires r == ReplaceRuns(s1, cc.isSpace)
    ensures forall i :: 0 <= i < |r| ==> r[i] == '-' || (cc.isWord(r[i]) && !cc.isSpace(r[i]))
    ensures cc.Valid() ==> IsLowercase(cc, r) && NoWhitespace(cc, r) && '.' !in r
  {
    forall i | 0 <= i < |r|
      ensures r[i] == '-' || (cc.isWord(r[i]) && !cc.isSpace(r[i]))
    {
      if r[i] != '-' {
        var j :| 0 <= j < |s1| && s1[j] == r[i];
        assert Kept(cc, s1[j]);
      }
    }
    if cc.Valid() {
      var P := IsLowerChar(cc);
      var t := Lower(cc, title);
      assert forall i :: 0 <= i < |t| ==> P(t[i]);
      CharsFromParts(t, s1, P);
      CharsFromParts(s1, r, P);
    }
  }

  /** `_title_to_slug` applied to its own output changes nothing. */
  lemma TitleToSlugIdempotent(cc: CharClasses, title: string)
    requires cc.Valid()
    ensures TitleToSlug(cc, TitleToSlug(cc, title)) == TitleToSlug(cc, title)
  {
    var r := TitleToSlug(cc, title);
    assert Lower(cc, r) == r by {
      assert forall i :: 0 <= i < |r| ==> Lower(cc, r)[i] == r[i];
    }
    ReplaceRunsIdentity(r, cc.isSpace);
  }

  /** The characters of `_title_to_slug(title)` other than `-` are, in
      order, the lowered title's word characters, `_` included. */
  lemma TitleToSlugKeepsLetters(cc: CharClasses, title: string)
    ensures Filter(TitleToSlug(cc, title), NotDash) == Filter(Lower(cc, title), TitleLetter(cc))
  {
    var s1 := RemoveSpecial(cc, Lower(cc, title));
    var q := c => !cc.isSpace(c) && c != '-';
    ReplaceRunsFilter(s1, cc.isSpace, NotDash, q);
    FilterFilter(Lower(cc, title), KeptClass(cc), q, TitleLetter(cc));
  }

  /** Spaces are replaced by dashes: on a lowered title with no special
      character and no two whitespace characters side by side, the slug is
      the title with each whitespace character replaced by `-`. */
  lemma TitleToSlugSpacesToDashes(cc: CharClasses, title: string)
    requires forall i :: 0 <= i < |title| ==> Kept(cc, cc.lower(title[i]))
    requires NoAdjacent(Lower(cc, title), cc.isSpace)
    ensures TitleToSlug(cc, title) == DashFor(Lower(cc, title), cc.isSpace)
  {
    var t := Lower(cc, title);
    assert RemoveSpecial(cc, t) == t;
    ReplaceRunsSingles(t, cc.isSpace);
  }

  /** Each maximal whitespace run becomes one `-`, for every title: the slug
      is the title, lowered and without special characters, with every
      whitespace run shortened to one character and that character turned
      into `-`. */
  lemma TitleToSlugCollapsesSpaces(cc: CharClasses, title: string)
    ensures TitleToSlug(cc, title) == DashFor(CollapseRuns(RemoveSpecial(cc, Lower(cc, title)), cc.isSpace), cc.isSpace)
  {
    ReplaceRunsCollapse(RemoveSpecial(cc, Lower(cc, title)), cc.isSpace);
  }
}

=== FILE: wrappers.dfy ===
/** The optional-value datatype used where the Python code returns `None`. */
module Wrappers {

  datatype Option<+T> = None | Some(value: T)
}
